=== FILE: README.md ===
# Salon booking: a Dafny model of the booking core

This project models the core logic of a salon-booking web app. Customers pick a service, a day
and a free time slot, fill in their details and pay. The salon's admin keeps the service
catalogue and the weekly opening hours. A shared link opens a reduced booking page that has no
payment step. The model covers:

- **Timeline** (`Clock`). An instant is a whole number of minutes on a local clock with no
  daylight-saving jumps, and minute 0 is midnight on Thursday 1 January 1970. The model derives
  the calendar day, midnight and the `getDay` weekday (0 = Sunday … 6 = Saturday) from it. It
  also defines the past-day test and the list of the next days.
- **Availability engine** (`Availability`). This is the weekday opening test and the slot
  generator:
  - It finds the first opening-hours entry for the date's weekday.
  - It reads `HH:mm` times the lenient way the code does (`split(":")` and `parseInt`, done in
    `Text`).
  - It walks candidate starts 30 minutes apart, from opening time up to closing time minus the
    service's duration.
  - It marks a slot unavailable when the code's three-clause overlap test meets a booked
    interval.
- **Calendar** (`Calendar`). The date picker disables past days, closed weekdays and the
  weekdays a service does not list.
- **Opening hours** (`Hours`, `AdminHours`):
  - The store is a map keyed by weekday, with `getBusinessHours`, `updateBusinessHours` and
    `initializeDefaultBusinessHours` over it.
  - The admin panel edits a local list of entries: adding and deleting a weekday, listing the
    missing weekdays, and editing one field.
- **Catalogue** (`Catalog`). This covers category defaulting (`'Uncategorized'`), the category
  lists of the selector and of the admin panel, grouping and filtering by category, lookup by id,
  the admin's edit draft, the "add category" button, and the toggle for a service's available
  weekdays.
- **Booking links** (`Links`):
  - `validateBookingLink`, `getBookingLinkById` and the record `createBookingLink` stores.
  - The gate the shared page puts in front of its flow.
  - The collection is a sequence of documents in query order.
- **Payment form** (`Payment`). The card-number formatter, the digit-only and upper-case input
  sanitisers, and the validity check that enables the pay button.
- **Booking flow** (`Flow`):
  - One state record serves both the salon page and the shared-link page.
  - Each handler, tab and button is a pure transition.
  - An invariant is proved over every run of events.
  - Some facts about the flow as written are proved too. After a paid booking and "new
    booking", the salon page still holds the old booking data. Its payment tab then reopens
    with nothing selected, and paying again saves the old booking a second time.

Two choices shape the model:

- A slot's id and its ISO start-time text are both modelled as the start instant.
  `toISOString` is injective, so this loses nothing.
- The booked intervals of a day run from each booking's start for the duration of the service
  selected **now**, as the page builds them, whatever service the booking was for.

`getBusinessHours` reads each document's `dayOfWeek` field. The model takes the weekday from the
document's key instead. `updateBusinessHours` is the only writer, and it writes that field equal
to the key, so the two agree.

The code's `getBookingLinkById` differs from the behaviour it evidently intends. It reports
every stored link as active: it writes `data.isActive || true` where `validateBookingLink` writes
`??`. The as-written and the corrected definitions are both modelled (see Findings).

The code's `groupedServices` builds its groups in a plain object. A category named after an
inherited property such as `"constructor"` finds that property where it expects a group, so
`push` throws and the page fails to render. The model keeps both the as-written grouping, which
fails on such names, and the corrected one, which the rest of the model uses (see Findings).

## Model

| member | source | states |
|---|---|---|
| Clock.DayStart | src/utils/dateUtils.js:33-36 | midnight of an instant's day is on the same calendar day, at most one day before it |
| Clock.Weekday | src/utils/dateUtils.js:46 | `getDay` is one of 0 (Sunday) … 6 (Saturday) |
| Clock.IsPastDate | src/utils/dateUtils.js:31-37 | a date is past exactly when its calendar day is before today's, i.e. when it is before today's midnight; the same day is never past |
| Clock.TodayNotPast | src/utils/dateUtils.js:31-37 | every instant of today, at any time of day, is not past |
| Clock.GetNextDays | src/utils/dateUtils.js:106-114 | exactly `daysToShow` dates (none for a negative count); date `i` is the start plus `i` days, on consecutive calendar days and consecutive weekdays |
| Availability.OverlapIsIntersection | src/utils/dateUtils.js:84-88 | for intervals of positive length, the three-clause overlap test holds exactly when the half-open intervals share an instant |
| Availability.ZeroLengthBookingBlocks | src/utils/dateUtils.js:84-88 | a zero-length booking at a slot's start blocks the slot, although the two share no instant |
| Availability.AnyOverlap | src/utils/dateUtils.js:79-89 | true exactly when some booked interval meets the three-clause test |
| Availability.IsBusinessOpen | src/utils/dateUtils.js:19-28 | with no entry for the weekday the day is closed; open only if some entry for the weekday is open |
| Availability.IsBusinessOpenFirst | src/utils/dateUtils.js:21-25 | the first entry for the weekday decides, whatever later entries for that weekday say |
| Availability.Window | src/utils/dateUtils.js:56-68 | the opening window is the day's midnight plus the offsets read from the opening and closing times; there is none when either time does not read, or when either end falls outside the ±8.64e15 ms a `Date` can hold; both ends of a window are inside that range |
| Availability.SlotCount | src/utils/dateUtils.js:71-75 | the number of starts 30 minutes apart from the first candidate up to the last start time; zero when the first candidate is after it |
| Availability.MakeSlot | src/utils/dateUtils.js:76-96 | a slot's id is its start and its end is start plus duration; it is unavailable exactly when some booking meets the overlap test |
| Availability.SlotsFrom | src/utils/dateUtils.js:73-100 | the loop yields one slot per candidate start; slot `i` starts `30 i` minutes after the first |
| Availability.DayWindow | src/utils/dateUtils.js:46-51 | a weekday with no entry, or whose first entry is closed, has no opening window |
| Availability.SlotsIn | src/utils/dateUtils.js:49-75 | without an opening window there are no slots, and none when the last start, closing time minus the duration, is outside the range a `Date` can hold |
| Availability.GenerateTimeSlots | src/utils/dateUtils.js:40-103 | a day that is not open has no slots |
| Availability.SlotsInShape | src/utils/dateUtils.js:71-99 | no slots when the last start `close − duration` is outside the range a `Date` can hold; otherwise the count is `(close − open − duration) / 30 + 1` when `close − open ≥ duration`, else 0; starts are `open + 30 i` within `[open, close − duration]`; each slot's id is its start and it lasts the duration; unavailable exactly when some booking meets the overlap test |
| Availability.SlotsOfOpenDay | src/utils/dateUtils.js:46-68 | on an open weekday whose times read, the slots are those of the window from the day's midnight plus the opening offset to midnight plus the closing offset |
| Availability.OutOfRangeTimeNoSlots | src/utils/dateUtils.js:56-75 | an opening or closing time that reads but carries the instant outside the range a `Date` can hold (a closing time of `"2400000000:00"` on any day after 1 January 1970) gives no window and no slots |
| Availability.DefaultDayHourly | src/utils/dateUtils.js:71-99 | on any day a `Date` can hold, a 09:00-17:00 day with a one-hour service and no bookings has fifteen available slots, the first at 09:00 and the last ending at 17:00 |
| Availability.DefaultOpenParses | src/utils/dateUtils.js:57-61 | the default opening time "09:00" reads as minute 540 |
| Availability.DefaultCloseParses | src/utils/dateUtils.js:64-67 | the default closing time "17:00" reads as minute 1020 |
| Availability.SlotsInMembers | src/utils/dateUtils.js:91-96 | every generated slot is the slot built at its own start |
| Availability.SlotsAscend | src/utils/dateUtils.js:99 | consecutive starts are 30 minutes apart, so starts strictly ascend |
| Availability.NoBookingsAllAvailable | src/utils/dateUtils.js:44-89 | with no booked intervals every slot is available |
| Availability.UnavailableIffIntersects | src/utils/dateUtils.js:79-89 | for positive durations and positive-length bookings, a slot is unavailable exactly when it shares an instant with some booking |
| Availability.SlotsLoop | src/utils/dateUtils.js:73-100 | the `while` loop, run step by step, produces exactly the slot sequence |
| Availability.GenerateTimeSlotsLoop | src/utils/dateUtils.js:40-103 | the function with its early return and its loop produces exactly the generated slots |
| Text.ClockOffsetOfChars | src/utils/dateUtils.js:57-61 | `HH:mm` written with any four digits reads, through `split(":")` and `parseInt`, as `HH · 60 + mm` minutes |
| Text.ClockOffsetWellFormed | src/utils/dateUtils.js:56-68 | on a well-formed `HH:mm` the lenient reading gives the minute of the day the time names |
| Text.FormatClock | src/utils/dateUtils.js:11 | printing a minute of the day gives a well-formed `HH:mm` naming that minute |
| Text.ClockRoundTrip | src/utils/dateUtils.js:8-12 | printing the minute a well-formed `HH:mm` names gives back the same text |
| Text.FormatTime | src/utils/dateUtils.js:8-12 | `formatTime` returns a well-formed `HH:mm` unchanged |
| Text.UpperChar | src/components/PaymentForm.jsx:134 | `a`-`z` and `à`-`þ` (not `÷`) become the capital 32 code points lower, `µ` becomes `Μ` and `ÿ` becomes `Ÿ`; the result is never a lower-case ASCII or Latin-1 letter; any other character, `ß` among them, is kept |
| Text.Utf16Length | src/components/PaymentForm.jsx:40-52 | `length` counts UTF-16 code units: between one and two per character |
| Text.Utf16OfBmp | src/components/PaymentForm.jsx:40-52 | text with no character above U+FFFF has exactly one code unit per character |
| Calendar.IsDisabled | src/components/BookingCalendar.jsx:16-35 | past days and closed weekdays are disabled; with no service, or one listing no weekdays, a day is disabled exactly when it is past or closed |
| Calendar.SelectableIff | src/components/BookingCalendar.jsx:16-35 | a day can be picked exactly when it is today or later, its weekday is open, and the service lists its weekday if it lists any |
| Calendar.ServiceOnlyNarrows | src/components/BookingCalendar.jsx:28-31 | choosing a service never enables a day that is disabled without one |
| Calendar.SameDaySameAnswer | src/components/BookingCalendar.jsx:16-35 | two instants of the same calendar day get the same answer |
| Calendar.WeekLaterSameUnlessPast | src/components/BookingCalendar.jsx:23-31 | a non-past day and the day a week later get the same answer |
| Hours.FindForDay | src/utils/dateUtils.js:47 | `find` finds nothing exactly when no entry is for the weekday; otherwise the entry it finds is from the list and is for that weekday |
| Hours.FindForDayFirst | src/utils/dateUtils.js:47 | `find` returns the first entry for the weekday |
| Hours.Stamp | src/lib/businessHours.js:43-46 | the written document keeps the entry's open flag and times and carries the server time |
| Hours.UpdateBusinessHours | src/lib/businessHours.js:37-52 | the store afterwards has the old keys plus the input's weekdays; weekdays absent from the input keep their document; each weekday holds the stamp of its last input entry |
| Hours.UpdateTwice | src/lib/businessHours.js:37-52 | writing the same hours twice leaves the store as one write does |
| Hours.Project | src/lib/businessHours.js:18-23 | only the weekday, open flag and the two times are kept; the timestamp is dropped |
| Hours.Projection | src/lib/businessHours.js:16-24 | the listed documents, each projected, one per weekday, exactly the store's documents |
| Hours.GetBusinessHours | src/lib/businessHours.js:11-34 | the result is strictly ascending by weekday, one entry per stored document, each entry the projection of its stored document, with nothing missing |
| Hours.DefaultHoursShape | src/lib/businessHours.js:61-69 | the default week has seven entries; entry `d` is weekday `d`, open 09:00-17:00 exactly on Monday to Friday |
| Hours.InitializeDefaultBusinessHours | src/lib/businessHours.js:55-77 | a non-empty store is left alone; an empty one gets weekdays 0..6, open 09:00-17:00 exactly on days 1-5, stamped now |
| Hours.InitializeTwice | src/lib/businessHours.js:55-77 | a second initialisation, at any later time, changes nothing |
| AdminHours.AddDay | src/components/AdminPanel.jsx:211-231 | with no weekday chosen, or one already listed, nothing changes; otherwise a closed 09:00-17:00 entry for it is appended; unique weekdays stay unique; the listed weekdays become the old ones plus the new one |
| AdminHours.DeleteDay | src/components/AdminPanel.jsx:234-238 | exactly the entry at the index is dropped, the rest in order; an index outside the list drops nothing; unique weekdays stay unique |
| AdminHours.DeleteDayUnlists | src/components/AdminPanel.jsx:234-238 | with unique weekdays, deleting an entry unlists its weekday and no other |
| AdminHours.MissingDays | src/components/AdminPanel.jsx:241-244 | exactly the weekdays 0..6 no entry is for, strictly ascending |
| AdminHours.AddDayFillsGap | src/components/AdminPanel.jsx:211-244 | adding a missing weekday takes exactly it off the missing list |
| AdminHours.DeleteDayOpensGap | src/components/AdminPanel.jsx:234-244 | deleting the entry for a weekday puts exactly it back on the missing list |
| AdminHours.EditEntry | src/components/AdminPanel.jsx:185-194 | an edit sets one field and keeps the weekday; opening a day fills an empty opening time with 09:00 and an empty closing time with 17:00 |
| AdminHours.UpdateHours | src/components/AdminPanel.jsx:181-197 | only the entry at the index changes, by the edit; the length is kept |
| AdminHours.UpdateKeepsDays | src/components/AdminPanel.jsx:181-197 | an edit changes no entry's weekday, so unique weekdays stay unique |
| AdminHours.OpenKeepsTimes | src/components/AdminPanel.jsx:185-192 | opening a day that has both times only sets its open flag |
| AdminHours.Displayed | src/components/AdminPanel.jsx:756-757 | the rendered list is a permutation of the local list, ascending by weekday, listing the same weekdays, and strictly ascending when weekdays are unique |
| AdminHours.DeleteShownRow | src/components/AdminPanel.jsx:756-789 | with unique weekdays, deleting row `i` of the rendered list drops exactly the weekday shown on that row |
| AdminHours.AddedDayShownInOrder | src/components/AdminPanel.jsx:211-231 | after adding a missing weekday the rendered list is strictly ascending by weekday and shows the new one |
| Catalog.DefaultCategory | src/components/ServiceSelector.jsx:29 | the defaulted category is never empty: the service's own, or `'Uncategorized'` when it has none |
| Catalog.CategoryList | src/components/ServiceSelector.jsx:29 | the defaulted category of every service, in list order |
| Catalog.Categories | src/components/ServiceSelector.jsx:28-31 | each defaulted category exactly once, nothing else, in order of first occurrence |
| Catalog.InCategory | src/components/ServiceSelector.jsx:53 | the services of one defaulted category, all of them and nothing else |
| Catalog.InCategoryAppend | src/components/ServiceSelector.jsx:53 | filtering a joined list is filtering each part and joining the results, so list order is kept |
| Catalog.InCategorySingle | src/components/ServiceSelector.jsx:53 | a one-service list keeps its service exactly when the service's defaulted category is the one asked for |
| Catalog.GroupedServices | src/components/ServiceSelector.jsx:34-46 | corrected: the groups are keyed by exactly the defaulted categories that occur, for every list |
| Catalog.GroupedServicesAsWritten | src/components/ServiceSelector.jsx:34-46 | as written: throws exactly when some defaulted category is an `Object.prototype` property name; on every other list it gives the corrected grouping |
| Catalog.ConstructorCategoryThrows | src/components/AdminPanel.jsx:248-255 | a service in the category `"constructor"` makes the grouping throw |
| Catalog.GroupIsCategory | src/components/ServiceSelector.jsx:34-46 | in the corrected grouping, each group holds exactly the services of its category, in list order |
| Catalog.GroupsPartition | src/components/AdminPanel.jsx:247-259 | in the corrected grouping, every service is in the group of its defaulted category and in no other group |
| Catalog.FilteredServices | src/components/ServiceSelector.jsx:49-55 | filter `"all"` returns the list unchanged; any other filter keeps exactly the services of that defaulted category, in list order (the category filter) |
| Catalog.FilterIsGroup | src/components/ServiceSelector.jsx:49-55 | a filter other than `"all"` shows exactly that category's group, or nothing for a category no service has |
| Catalog.FindById | src/components/ServiceSelector.jsx:133-137 | nothing is found exactly when no service has the id; otherwise the service found has that id |
| Catalog.FindByIdFirst | src/components/ServiceSelector.jsx:134 | `find` returns the service at the first index carrying the id |
| Catalog.ServiceCategories | src/components/AdminPanel.jsx:81-89 | starts with `'Uncategorized'`, has no duplicates, holds every service's defaulted category and every local category, and nothing else |
| Catalog.EditService | src/components/AdminPanel.jsx:120-130 | the draft copies name, duration, description and weekdays, and takes the defaulted, never empty category |
| Catalog.EditSaved | src/components/AdminPanel.jsx:120-138 | saving a draft and editing the saved service again gives the same draft |
| Catalog.AddCategory | src/components/AdminPanel.jsx:460-465 | a name whose trimmed text is non-empty becomes the draft's category and is appended to the local categories, trimmed at both ends; any other name changes nothing |
| Catalog.PrototypeNameAccepted | src/components/AdminPanel.jsx:460-465 | the name `"constructor"` is accepted as a category, although it is an inherited property name |
| Catalog.BlankCategoryRejected | src/components/AdminPanel.jsx:460 | a name made only of white space is never added |
| Catalog.ToggleAvailableDay | src/components/AdminPanel.jsx:149-162 | the toggled day is listed afterwards exactly when it was not before; other days keep their membership; an added day leaves the list sorted; sorted and strictly sorted lists stay so |
| Catalog.RemoveDay | src/components/AdminPanel.jsx:159 | the filter keeps exactly the other days and drops the given one |
| Catalog.ToggleTwice | src/components/AdminPanel.jsx:165-178 | toggling a day twice on a strictly ascending list restores the list |
| Links.DemoLink | src/lib/booking-links.js:79-87 | the demo link has id and token `demo`, is active, and was created now |
| Links.NormalTime | src/lib/booking-links.js:111-119 | a stored timestamp is converted, a text is parsed, anything else becomes now |
| Links.FirstWithToken | src/lib/booking-links.js:92-105 | nothing is found exactly when no document carries the token; otherwise the found document is the first in query order with that token |
| Links.FirstWithTokenAt | src/lib/booking-links.js:105 | the document found is the one with no equal token before it |
| Links.ValidateBookingLink | src/lib/booking-links.js:70-138 | no token gives null; the demo token gives the demo link; an unreachable collection gives null; a found link carries the asked-for token |
| Links.ValidateFindsFirst | src/lib/booking-links.js:105-126 | the first document with the token is returned with its id, its normalised time, and its stored activity (true only when absent) |
| Links.NoTokenNoLink | src/lib/booking-links.js:99-102 | when no document carries the token the result is null |
| Links.CreatedDoc | src/lib/booking-links.js:44-48 | the stored record has the token, the creation time as ISO text, and `isActive` true |
| Links.CreatedLink | src/lib/booking-links.js:57-62 | the returned link has the new document id, the token, the instant of the second clock read after the store write, and is active |
| Links.CreatedLinkValidates | src/lib/booking-links.js:32-67 | a link just created under a token no other document carries validates to the record creation returned, but with the stored creation instant in place of the later clock read; the two records are equal exactly when both reads give the same instant |
| Links.DocById | src/lib/booking-links.js:156-161 | nothing is read exactly when no document has the id; otherwise the document read has that id |
| Links.GetBookingLinkByIdAsWritten | src/lib/booking-links.js:141-185 | as written: no id, an unreachable collection or a missing document gives null; the demo id gives the demo link; a found link carries the asked-for id and the stored token, and is always reported active |
| Links.AsWrittenForcesActive | src/lib/booking-links.js:175-180 | as written, the read by id is the corrected read with its activity forced to true, and nothing else differs |
| Links.DeactivatedReadsActive | src/lib/booking-links.js:179 | a document stored with `isActive` false is read by id as active |
| Links.GetBookingLinkById | src/lib/booking-links.js:141-185 | corrected: no id, an unreachable collection or a missing document gives null; the demo id gives the demo link; a found link keeps the stored activity, reading true only when absent |
| Links.DocByIdAt | src/lib/booking-links.js:156-161 | the document read by id is the one at any index with no equal id before it |
| Links.LookupsAgree | src/lib/booking-links.js:70-185 | in any collection, the corrected read by id and the validation agree on a document whose token is its id, when no earlier document carries that id or that token |
| Links.LinkValid | src/pages/BookingLink.jsx:47-96 | no token is invalid; the demo token is valid without a call; otherwise valid exactly when validation returned a link, never when it threw |
| Links.GateIff | src/pages/BookingLink.jsx:69-85 | the shared page admits a token exactly when it is the demo token or some stored document carries it |
| Links.InactiveLinkAdmitted | src/pages/BookingLink.jsx:69-85 | a link stored as inactive validates with `isActive` false and still opens the page |
| Payment.Grouped | src/components/PaymentForm.jsx:58-65 | the grouping of `n` digits is empty for none, and otherwise `n + (n − 1) / 4` long |
| Payment.GroupedAt | src/components/PaymentForm.jsx:58-65 | position `k` of the grouping is a space exactly when `k mod 5 = 4`, and otherwise digit `k − k / 5` of the input |
| Payment.KeptDigits | src/components/PaymentForm.jsx:55-57 | the first match of `\d{4,16}` on the input's digits: nothing for fewer than four, otherwise the first `min(16, n)` of them |
| Payment.FormatCardNumber | src/components/PaymentForm.jsx:54-69 | fewer than four digits returns the input unchanged; otherwise the kept digits in blocks of four |
| Payment.FormattedShape | src/components/PaymentForm.jsx:54-66 | with four digits or more the output is only digits and spaces, at most 19 characters |
| Payment.FormatIdempotent | src/components/PaymentForm.jsx:54-69 | formatting a formatted number changes nothing |
| Payment.IsFormValid | src/components/PaymentForm.jsx:40-52 | lengths counted in UTF-16 code units as `length` does: a card payment is valid exactly with a number of sixteen units once spaces are removed, a trimmed name over three units, month and year chosen, and a CVV of three units; a Swish payment exactly with a phone number of ten units once spaces are removed |
| Payment.FormattedNumberAccepted | src/components/PaymentForm.jsx:43 | sixteen or more digits typed pass the card-number check once formatted |
| Payment.ShortNumberRejected | src/components/PaymentForm.jsx:43 | four to fifteen digits typed never pass the card-number check once formatted |
| Payment.SanitiseDigits | src/components/PaymentForm.jsx:189 | the sanitised input is only digits, no longer than the input, and keeps every digit typed |
| Payment.SanitiseIdempotent | src/components/PaymentForm.jsx:205 | sanitising sanitised digits changes nothing |
| Payment.SanitisedPhoneValid | src/components/PaymentForm.jsx:50 | a sanitised phone number passes the Swish check exactly when it has ten digits |
| Payment.SanitiseName | src/components/PaymentForm.jsx:134 | upper-casing maps each character to one character, so the length is kept; it leaves no lower-case ASCII or Latin-1 letter other than `ß` (`å`, `ä`, `ö`, `µ`, `ÿ` included), and keeps every other character in place |
| Payment.SwedishNameUpperCased | src/components/PaymentForm.jsx:134 | `"åsa"` is upper-cased to `"ÅSA"` |
| Payment.EmojiNameLength | src/components/PaymentForm.jsx:44 | two emoji are four code units, so a name of two emoji passes the over-three check |
| Payment.LatinOneEdgeCases | src/components/PaymentForm.jsx:134 | `"ÿµß"` is upper-cased to `"ŸΜß"`: the first two capitals lie outside Latin-1, and `ß` is kept |
| Payment.SanitiseNameIdempotent | src/components/PaymentForm.jsx:134 | upper-casing twice is upper-casing once |
| Flow.SelectService | src/pages/Index.jsx:195-201 | the service is chosen, the date and time step opens, and date and slot are cleared; nothing else changes |
| Flow.SelectDate | src/components/BookingCalendar.jsx:52-56 | a disabled day cannot be picked; any other day becomes the chosen date |
| Flow.BookedIntervals | src/pages/Index.jsx:169-174 | each booking of the day becomes the interval from its start lasting the selected service's duration |
| Flow.LoadSlots | src/pages/Index.jsx:161-192 | with a date and a service chosen, the slots are regenerated from the day's booked intervals and the chosen slot is cleared; otherwise nothing changes |
| Flow.SelectSlot | src/components/TimeSlotSelector.jsx:40-44 | only an available slot of the list shown can become the chosen slot |
| Flow.Continue | src/pages/Index.jsx:788-789 | the continue button moves on to details only with a slot chosen |
| Flow.NewBooking | src/pages/Index.jsx:219-228 | the booking has the service's id, the slot's start and id, the form's fields, notes defaulting to "", and status "confirmed" |
| Flow.Submit | src/pages/Index.jsx:204-247 | with a service, slot or date missing nothing changes; the salon page keeps the booking aside and moves to payment; the shared page saves and confirms it at once, and changes nothing when the save fails |
| Flow.PaymentComplete | src/pages/Index.jsx:250-286 | without a kept booking, or when the save fails, nothing changes; otherwise the kept booking is saved, appended and confirmed |
| Flow.CancelPayment | src/pages/Index.jsx:862 | cancelling on the payment step returns to details |
| Flow.StartOver | src/pages/Index.jsx:289-295 | service, date, slot and confirmation are cleared and the flow returns to the service step; the kept booking and the bookings stay |
| Flow.ClickTab | src/pages/Index.jsx:699-742 | no tab works on the confirmation step; date and time needs a service, details a service and a slot, payment (salon page only) a kept booking |
| Flow.WithoutService | src/pages/Index.jsx:490 | exactly the services without the id remain |
| Flow.WithoutServiceAppend | src/pages/Index.jsx:490 | removing from a joined list is removing from each part and joining, so the remaining services keep their order and repetitions |
| Flow.WithoutServiceSingle | src/pages/Index.jsx:490 | a one-service list keeps its service exactly when its id is another |
| Flow.DeleteService | src/pages/Index.jsx:472-507 | deletion is refused while a booking is for the service, and does nothing when the store delete fails; otherwise the list becomes `WithoutService` of it, so exactly the services with that id leave it |
| Flow.StartInv | src/pages/Index.jsx:699-742 | a freshly loaded page satisfies the flow invariant |
| Flow.ApplyInv | src/pages/Index.jsx:699-742 | every event keeps the flow invariant (date step has a service; a chosen slot is available and shown; payment step has a kept booking; confirmation has a confirmed booking) |
| Flow.RunInv | src/pages/BookingLink.jsx:298-327 | every sequence of events keeps the flow invariant on either page |
| Flow.SharedNeverPays | src/pages/BookingLink.jsx:171-219 | the shared-link page never reaches the payment step |
| Flow.BookedStartUnavailable | src/pages/Index.jsx:169-181 | a slot starting exactly at an existing booking's start is unavailable, for a service of positive duration |
| Flow.StaleBookingReopensPayment | src/pages/Index.jsx:289-295 | after a paid booking and "new booking", the payment tab reopens with no service, and cancelling lands on details with no service or slot |
| Flow.StaleBookingSavedTwice | src/pages/Index.jsx:250-273 | completing payment again from there saves the old booking a second time |
| Flow.DeleteRefusedIff | src/pages/Index.jsx:475-490 | a deletion changes the services only when no booking is for the service, and then the services become exactly `WithoutService` of them |

## Left out

- Firestore and authentication are left out. Every store read and write is I/O, so the model
  uses a map (opening hours), a document sequence (links) or a booking list instead. The
  `getBookingsByDate` day query is a parameter (`dayBookings`). Thrown errors of the stores
  become a failed-save or unreachable-collection value where the code catches them. The rethrow
  in `lib/businessHours.js` is not modelled.
- The wall clock is a parameter: "today", "now" and the server timestamp.
- The random token of `createBookingLink` is a parameter.
- `toISOString` and `new Date(text)` are the parameters `toIso` and `parseIso`.
- Time zones, daylight saving and locale formatting are left out. The timeline has no
  daylight-saving jumps, and `formatDate`, `formatDateTime` and the slot display are library
  formatting.
- Prices are left out: they are floating point.
- The `setTimeout` payment simulation is left out.
- The order of asynchronous effects and double-booking races are left out. A date choice and its
  slot load are separate events applied in the order given.
- The calendar deselecting the chosen day is left out: the model only picks days.
- The browser's `maxLength` truncation of the card, CVV and phone fields is left out.
- The `zod` email check of the details form is left out: it is a library validator.
- Text.FormatTime: requires a well-formed `HH:mm`. The library's parse also accepts other
  spellings, such as one-digit fields (`"9:5"`), and prints them normalised (`"09:05"`); that
  normalisation is not modelled. Text it cannot read as a time gives an invalid date, and
  formatting that throws.
- Text.UpperChar: covers the lower-case letters of ASCII and Latin-1 only. `toUpperCase` also
  maps the letters of other scripts, which the model keeps unchanged. It turns `ß` into the two
  characters `SS`, and the model keeps `ß`.
- Payment.SanitiseName: inherits the limits of Text.UpperChar. Letters of other scripts are kept
  unchanged. `ß` is kept, where `toUpperCase` gives `SS` and lengthens the text, so "the length
  is kept" holds of the model only.
- AdminHours.UpdateHours: requires an index inside the list. The panel only calls it for a
  listed entry.
- AdminHours.UpdateHours: the entries are values. The code copies only the array
  (`[...businessHours]`), so when a day with an empty time is opened, the 09:00 or 17:00 filled
  in is also written into the entry object the parent's hours share (its open flag is not). That
  write into the parent's state is not modelled.
- AdminHours.Displayed: the panel sorts its local list in place while rendering. The model
  applies that sort as a separate function; the row indexes handed to `DeleteDay` and
  `UpdateHours` are positions in `Displayed`'s order, not in the order the list was loaded or
  extended in.
- Availability.UnavailableIffIntersects: requires a positive duration and positive-length
  bookings. The admin form lets `parseInt || 0` through, and with zero lengths the three-clause
  test blocks more than intersection does (Availability.ZeroLengthBookingBlocks).
- Availability.SlotsIn: with a negative duration, a slot's end can fall below the earliest
  instant a `Date` can hold while its start does not. There `toISOString` throws a RangeError,
  and the model gives the slot an end instant instead. With a duration of zero or more every
  slot's end lies inside the window.
- Flow.SelectSlot: only the available-slot assumption of the time-slot list is kept. That list
  passes only available slots on; the rest of it is UI.

## Findings

| source | as written | input that shows it | evidently intended | confidence | as-written member | corrected member |
|---|---|---|---|---|---|---|
| src/lib/booking-links.js:179 | `isActive: data.isActive \|\| true`, which is true for every stored value | a document stored with `isActive: false`, read by its id | `data.isActive ?? true`, as `validateBookingLink` writes at line 125: keep a stored value and default only an absent one | high (not executed) | Links.DeactivatedReadsActive | Links.GetBookingLinkById |
| src/components/ServiceSelector.jsx:35-42 | `const groups = {}` (and the same code at AdminPanel.jsx:248-255), then `if (!groups[category]) groups[category] = []` and `groups[category].push(service)` | a service whose category is `"constructor"` (a name add-category accepts): `groups["constructor"]` is the inherited `Object` function, which is truthy, so `push` is undefined and throws a TypeError while rendering | one group per category name, with no inherited entries (`Object.create(null)` or a `Map`) | medium (not executed) | Catalog.ConstructorCategoryThrows | Catalog.GroupedServices |

=== FILE: adminhours.dfy ===
/**
  The admin panel's local editing of opening hours (`AdminPanel.jsx`): a list of weekday entries
  that the admin adds to, deletes from and edits before saving it with `updateBusinessHours`.
*/
module AdminHours {
  import opened Wrappers
  import opened Hours
  import Seqs

  /** No two entries of the list are for the same weekday. */
  predicate UniqueDays(hours: seq<BusinessHours>) {
    forall i, j :: 0 <= i < j < |hours| ==> hours[i].dayOfWeek != hours[j].dayOfWeek
  }

  /** Some entry of the list is for the weekday. */
  predicate HasDay(hours: seq<BusinessHours>, day: int) {
    exists i :: 0 <= i < |hours| && hours[i].dayOfWeek == day
  }

  /** `addDay()`: with no weekday chosen, or one already listed, nothing changes; otherwise a
      closed 09:00-17:00 entry for it is appended. */
  function AddDay(hours: seq<BusinessHours>, newDay: Option<int>): (r: seq<BusinessHours>)
    ensures newDay.None? ==> r == hours
    ensures newDay.Some? && HasDay(hours, newDay.value) ==> r == hours
    ensures newDay.Some? && !HasDay(hours, newDay.value) ==>
      r == hours + [BusinessHours(newDay.value, false, "09:00", "17:00")]
    ensures UniqueDays(hours) ==> UniqueDays(r)
    ensures forall d :: HasDay(r, d) <==> HasDay(hours, d) || newDay == Some(d)
  {
    if newDay.None? then hours
    else if exists i :: 0 <= i < |hours| && hours[i].dayOfWeek == newDay.value then hours
    else
      var r := hours + [BusinessHours(newDay.value, false, "09:00", "17:00")];
      assert forall d :: HasDay(r, d) ==> HasDay(hours, d) || newDay == Some(d) by {
        forall d | HasDay(r, d) ensures HasDay(hours, d) || newDay == Some(d) {
          var i :| 0 <= i < |r| && r[i].dayOfWeek == d;
          if i < |hours| { assert hours[i].dayOfWeek == d; }
        }
      }
      assert HasDay(r, newDay.value) by { assert r[|hours|].dayOfWeek == newDay.value; }
      assert forall d :: HasDay(hours, d) ==> HasDay(r, d) by {
        forall d | HasDay(hours, d) ensures HasDay(r, d) {
          var i :| 0 <= i < |hours| && hours[i].dayOfWeek == d;
          assert r[i].dayOfWeek == d;
        }
      }
      r
  }

  /** `deleteDay(i)`: the entry at index `i` is dropped and the rest keep their order; an index
      outside the list drops nothing. */
  function DeleteDay(hours: seq<BusinessHours>, index: int): (r: seq<BusinessHours>)
    ensures !(0 <= index < |hours|) ==> r == hours
    ensures 0 <= index < |hours| ==> |r| == |hours| - 1
    ensures 0 <= index < |hours| ==> forall k :: 0 <= k < |r| ==> r[k] == (if k < index then hours[k] else hours[k + 1])
    ensures UniqueDays(hours) ==> UniqueDays(r)
  {
    if 0 <= index < |hours| then hours[..index] + hours[index + 1..] else hours
  }

  /** Deleting the only entry for a weekday unlists that weekday and nothing else. */
  lemma {:induction false} DeleteDayUnlists(hours: seq<BusinessHours>, index: int, d: int)
    requires UniqueDays(hours) && 0 <= index < |hours|
    ensures HasDay(DeleteDay(hours, index), d) <==> HasDay(hours, d) && d != hours[index].dayOfWeek
  {
    var r := DeleteDay(hours, index);
    if HasDay(r, d) {
      var k :| 0 <= k < |r| && r[k].dayOfWeek == d;
      if k < index { assert hours[k].dayOfWeek == d; } else { assert hours[k + 1].dayOfWeek == d; }
    }
    if HasDay(hours, d) && d != hours[index].dayOfWeek {
      var k :| 0 <= k < |hours| && hours[k].dayOfWeek == d;
      if k < index { assert r[k].dayOfWeek == d; } else { assert r[k - 1].dayOfWeek == d; }
    }
  }

  /** The list as the panel renders it: sorted by weekday in place, so the row indexes handed to
      `deleteDay` and `updateHours` are positions in this order, and the local list holds this
      order from the first render on. */
  function Displayed(hours: seq<BusinessHours>): (r: seq<BusinessHours>)
    ensures |r| == |hours| && multiset(r) == multiset(hours)
    ensures Seqs.SortedBy(r, DayOf)
    ensures forall d :: HasDay(r, d) <==> HasDay(hours, d)
    ensures UniqueDays(hours) ==> Seqs.StrictlySortedBy(r, DayOf) && UniqueDays(r)
  {
    var r := Seqs.SortBy(hours, DayOf);
    assert forall d :: HasDay(r, d) ==> HasDay(hours, d) by {
      forall d | HasDay(r, d) ensures HasDay(hours, d) {
        var i :| 0 <= i < |r| && r[i].dayOfWeek == d;
        var j :| 0 <= j < |hours| && hours[j] == r[i];
      }
    }
    assert forall d :: HasDay(hours, d) ==> HasDay(r, d) by {
      forall d | HasDay(hours, d) ensures HasDay(r, d) {
        var i :| 0 <= i < |hours| && hours[i].dayOfWeek == d;
        var j :| 0 <= j < |r| && r[j] == hours[i];
      }
    }
    if UniqueDays(hours) then
      Seqs.SortByStrict(hours, DayOf);
      r
    else r
  }

  /** Pressing delete on row `index` of the rendered list drops exactly the weekday shown there. */
  lemma DeleteShownRow(hours: seq<BusinessHours>, index: int, d: int)
    requires UniqueDays(hours) && 0 <= index < |hours|
    ensures HasDay(DeleteDay(Displayed(hours), index), d) <==>
      HasDay(hours, d) && d != Displayed(hours)[index].dayOfWeek
  {
    DeleteDayUnlists(Displayed(hours), index, d);
  }

  /** A weekday added with `addDay` is rendered in its weekday position among the others. */
  lemma AddedDayShownInOrder(hours: seq<BusinessHours>, d: int)
    requires UniqueDays(hours) && !HasDay(hours, d)
    ensures Seqs.StrictlySortedBy(Displayed(AddDay(hours, Some(d))), DayOf)
    ensures HasDay(Displayed(AddDay(hours, Some(d))), d)
  {
  }

  /** The weekdays `from .. 6` that no entry is for, ascending. */
  function MissingFrom(hours: seq<BusinessHours>, from: int): (r: seq<int>)
    requires 0 <= from <= 7
    ensures forall d :: d in r <==> from <= d < 7 && !HasDay(hours, d)
    ensures forall i, j :: 0 <= i < j < |r| ==> r[i] < r[j]
    ensures forall i :: 0 <= i < |r| ==> from <= r[i]
    decreases 7 - from
  {
    if from == 7 then []
    else
      var rest := MissingFrom(hours, from + 1);
      if HasDay(hours, from) then rest else [from] + rest
  }

  /** `getMissingDays()`: exactly the weekdays 0..6 no entry is for, in ascending order. */
  function MissingDays(hours: seq<BusinessHours>): (r: seq<int>)
    ensures forall d :: d in r <==> 0 <= d < 7 && !HasDay(hours, d)
    ensures forall i, j :: 0 <= i < j < |r| ==> r[i] < r[j]
  {
    MissingFrom(hours, 0)
  }

  /** Adding a missing weekday takes exactly it off the missing list. */
  lemma AddDayFillsGap(hours: seq<BusinessHours>, d: int)
    requires d in MissingDays(hours)
    ensures forall e :: e in MissingDays(AddDay(hours, Some(d))) <==> e in MissingDays(hours) && e != d
  {
  }

  /** Deleting the entry for a weekday puts exactly it back on the missing list. */
  lemma DeleteDayOpensGap(hours: seq<BusinessHours>, index: int)
    requires UniqueDays(hours) && 0 <= index < |hours| && 0 <= hours[index].dayOfWeek < 7
    ensures forall e :: e in MissingDays(DeleteDay(hours, index)) <==>
      e in MissingDays(hours) || e == hours[index].dayOfWeek
  {
    forall e ensures e in MissingDays(DeleteDay(hours, index)) <==> e in MissingDays(hours) || e == hours[index].dayOfWeek {
      DeleteDayUnlists(hours, index, e);
    }
  }

  /** The edits `updateHours(index, field, value)` makes: one field of one entry. */
  datatype Edit = SetOpen(open: bool) | SetOpenTime(openTime: string) | SetCloseTime(closeTime: string)

  /** One entry after an edit. Opening a day first fills an empty opening time with 09:00 and an
      empty closing time with 17:00. */
  function EditEntry(h: BusinessHours, edit: Edit): (r: BusinessHours)
    ensures r.dayOfWeek == h.dayOfWeek
    ensures edit.SetOpen? ==> r.isOpen == edit.open
    ensures edit == SetOpen(true) ==> r.openTime == (if h.openTime == "" then "09:00" else h.openTime)
    ensures edit == SetOpen(true) ==> r.closeTime == (if h.closeTime == "" then "17:00" else h.closeTime)
    ensures edit == SetOpen(false) ==> r.openTime == h.openTime && r.closeTime == h.closeTime
    ensures edit.SetOpenTime? ==> r == h.(openTime := edit.openTime)
    ensures edit.SetCloseTime? ==> r == h.(closeTime := edit.closeTime)
  {
    match edit
    case SetOpen(open) =>
      var filled := if open then
        h.(openTime := if h.openTime == "" then "09:00" else h.openTime,
           closeTime := if h.closeTime == "" then "17:00" else h.closeTime)
      else h;
      filled.(isOpen := open)
    case SetOpenTime(t) => h.(openTime := t)
    case SetCloseTime(t) => h.(closeTime := t)
  }

  /** `updateHours(index, field, value)`: only entry `index` changes, by the edit. */
  function UpdateHours(hours: seq<BusinessHours>, index: int, edit: Edit): (r: seq<BusinessHours>)
    requires 0 <= index < |hours|
    ensures |r| == |hours| && r[index] == EditEntry(hours[index], edit)
    ensures forall k :: 0 <= k < |r| && k != index ==> r[k] == hours[k]
  {
    hours[index := EditEntry(hours[index], edit)]
  }

  /** An edit never changes which weekdays are listed, so unique weekdays stay unique. */
  lemma {:induction false} UpdateKeepsDays(hours: seq<BusinessHours>, index: int, edit: Edit)
    requires 0 <= index < |hours|
    ensures forall k :: 0 <= k < |hours| ==> UpdateHours(hours, index, edit)[k].dayOfWeek == hours[k].dayOfWeek
    ensures UniqueDays(hours) ==> UniqueDays(UpdateHours(hours, index, edit))
  {
    var r := UpdateHours(hours, index, edit);
    assert forall k :: 0 <= k < |hours| ==> r[k].dayOfWeek == hours[k].dayOfWeek;
  }

  /** Opening a day that had both times leaves them as they were. */
  lemma OpenKeepsTimes(h: BusinessHours)
    requires h.openTime != "" && h.closeTime != ""
    ensures EditEntry(h, SetOpen(true)) == h.(isOpen := true)
  {
  }
}

=== FILE: availability.dfy ===
/**
  The availability engine of `dateUtils.js`: whether a weekday is open, and the candidate
  appointment slots of a day with their availability against already-booked intervals.
  Instants are minutes on the timeline of module `Clock`.
*/
module Availability {
  import opened Wrappers
  import Clock
  import Text
  import opened Hours

  /** Minutes between consecutive candidate starts. */
  const SlotInterval: int := 30

  /** A booked interval `[start, end)`. */
  datatype Interval = Interval(start: int, end: int)

  /** A candidate slot; `id` is its start instant (the source uses the start's ISO string). */
  datatype TimeSlot = TimeSlot(id: int, startTime: int, endTime: int, available: bool)

  // ---- overlap ----

  /** The three-clause test the slot generator applies to a slot `[s, e)` and a booking. */
  predicate OverlapsAsWritten(s: int, e: int, b: Interval) {
    || (s >= b.start && s < b.end)
    || (e > b.start && e <= b.end)
    || (s <= b.start && e >= b.end)
  }

  /** Half-open intervals `[s, e)` and `[b.start, b.end)` share an instant. */
  predicate Intersects(s: int, e: int, b: Interval) {
    s < b.end && e > b.start
  }

  /** For intervals of positive length the three-clause test is exactly half-open intersection. */
  lemma OverlapIsIntersection(s: int, e: int, b: Interval)
    requires s < e && b.start < b.end
    ensures OverlapsAsWritten(s, e, b) <==> Intersects(s, e, b)
  {
  }

  /** With a zero-length booking the two tests part: a booking at the slot's own start blocks it
      although no instant is shared. */
  lemma ZeroLengthBookingBlocks()
    ensures OverlapsAsWritten(540, 600, Interval(540, 540))
    ensures !Intersects(540, 600, Interval(540, 540))
  {
  }

  /** `existingBookings.some(...)`: the slot meets at least one booking. */
  function AnyOverlap(s: int, e: int, bookings: seq<Interval>): (r: bool)
    ensures r <==> exists i :: 0 <= i < |bookings| && OverlapsAsWritten(s, e, bookings[i])
  {
    if |bookings| == 0 then false
    else OverlapsAsWritten(s, e, bookings[0]) || AnyOverlap(s, e, bookings[1..])
  }

  // ---- isBusinessOpen ----

  /** `isBusinessOpen(date, businessHours)`: the first entry for the date's weekday exists and is
      open. */
  function IsBusinessOpen(date: int, hours: seq<BusinessHours>): (r: bool)
    ensures (forall i :: 0 <= i < |hours| ==> hours[i].dayOfWeek != Clock.Weekday(date)) ==> !r
    ensures r ==> exists i :: 0 <= i < |hours| && hours[i].dayOfWeek == Clock.Weekday(date) && hours[i].isOpen
  {
    var entry := FindForDay(hours, Clock.Weekday(date));
    entry.Some? && entry.value.isOpen
  }

  /** The first entry for the weekday decides, whatever later entries for that weekday say. */
  lemma IsBusinessOpenFirst(date: int, hours: seq<BusinessHours>, i: int)
    requires 0 <= i < |hours| && hours[i].dayOfWeek == Clock.Weekday(date)
    requires forall j :: 0 <= j < i ==> hours[j].dayOfWeek != Clock.Weekday(date)
    ensures IsBusinessOpen(date, hours) == hours[i].isOpen
  {
    FindForDayFirst(hours, Clock.Weekday(date), i);
  }

  // ---- generateTimeSlots ----

  /** The opening window of the date's day under one entry: `setHours` on the date with the
      parsed hour and minute of the opening and closing times. `None` when either `Date` is
      invalid, against which every comparison fails: a time that does not parse, or one whose
      hours carry the instant out of the range a `Date` holds. */
  function Window(date: int, h: BusinessHours): (w: Option<(int, int)>)
    ensures w.Some? ==> Text.ClockOffset(h.openTime).Some? && Text.ClockOffset(h.closeTime).Some?
    ensures w.Some? ==> w.value.0 == Clock.DayStart(date) + Text.ClockOffset(h.openTime).value
    ensures w.Some? ==> w.value.1 == Clock.DayStart(date) + Text.ClockOffset(h.closeTime).value
    ensures w.Some? ==> Clock.InDateRange(w.value.0) && Clock.InDateRange(w.value.1)
    ensures w.None? ==> Text.ClockOffset(h.openTime).None? || Text.ClockOffset(h.closeTime).None?
                        || !Clock.InDateRange(Clock.DayStart(date) + Text.ClockOffset(h.openTime).value)
                        || !Clock.InDateRange(Clock.DayStart(date) + Text.ClockOffset(h.closeTime).value)
  {
    var open, close := Text.ClockOffset(h.openTime), Text.ClockOffset(h.closeTime);
    if open.Some? && close.Some? then
      var start, end := Clock.DayStart(date) + open.value, Clock.DayStart(date) + close.value;
      if Clock.InDateRange(start) && Clock.InDateRange(end) then Some((start, end)) else None
    else None
  }

  /** The number of candidate starts `from, from + 30, …` not after `last`. */
  function SlotCount(from: int, last: int): (n: int)
    ensures n >= 0
    ensures from > last ==> n == 0
    ensures from <= last ==> from + (n - 1) * SlotInterval <= last < from + n * SlotInterval
  {
    if from > last then 0 else (last - from) / SlotInterval + 1
  }

  /** The slot starting at `start`. */
  function MakeSlot(start: int, duration: int, bookings: seq<Interval>): (t: TimeSlot)
    ensures t.id == t.startTime == start && t.endTime == start + duration
    ensures !t.available <==> exists i :: 0 <= i < |bookings| && OverlapsAsWritten(start, start + duration, bookings[i])
  {
    TimeSlot(start, start, start + duration, !AnyOverlap(start, start + duration, bookings))
  }

  /** The loop of `generateTimeSlots` from the candidate `current` on: one slot per start while
      the start is not after `last`, moving 30 minutes each time. */
  function SlotsFrom(current: int, last: int, duration: int, bookings: seq<Interval>): (r: seq<TimeSlot>)
    ensures |r| == SlotCount(current, last)
    ensures forall i :: 0 <= i < |r| ==> r[i] == MakeSlot(current + i * SlotInterval, duration, bookings)
    decreases last - current
  {
    if current > last then []
    else
      var rest := SlotsFrom(current + SlotInterval, last, duration, bookings);
      assert forall i :: 1 <= i < |rest| + 1 ==> current + i * SlotInterval == current + SlotInterval + (i - 1) * SlotInterval;
      [MakeSlot(current, duration, bookings)] + rest
  }

  /** The opening window `generateTimeSlots` works in: `None` when the weekday has no entry, the
      first entry is closed, or its times do not parse. */
  function DayWindow(date: int, hours: seq<BusinessHours>): (w: Option<(int, int)>)
    ensures !IsBusinessOpen(date, hours) ==> w.None?
  {
    match FindForDay(hours, Clock.Weekday(date))
    case None => None
    case Some(h) => if h.isOpen then Window(date, h) else None
  }

  /** The slots `generateTimeSlots` produces in an opening window, or none without one. The
      last start, `addMinutes(endDate, -serviceDuration)`, is an invalid `Date` outside the range,
      and the loop test against it fails at once. */
  function SlotsIn(w: Option<(int, int)>, duration: int, bookings: seq<Interval>): (r: seq<TimeSlot>)
    ensures w.None? ==> r == []
    ensures w.Some? && !Clock.InDateRange(w.value.1 - duration) ==> r == []
  {
    match w
    case None => []
    case Some(w) =>
      if Clock.InDateRange(w.1 - duration) then SlotsFrom(w.0, w.1 - duration, duration, bookings) else []
  }

  /** `generateTimeSlots(date, businessHours, serviceDuration, existingBookings)`. */
  function GenerateTimeSlots(date: int, hours: seq<BusinessHours>, duration: int, bookings: seq<Interval>): (r: seq<TimeSlot>)
    ensures !IsBusinessOpen(date, hours) ==> r == []
  {
    SlotsIn(DayWindow(date, hours), duration, bookings)
  }

  /** The slots of a window from `open` to `close` start at `open`, `open + 30`, … up to
      `close - duration`, each lasting `duration`, identified by its start, and unavailable
      exactly when the three-clause test meets some booking. */
  lemma {:induction false} SlotsInShape(open: int, close: int, duration: int, bookings: seq<Interval>)
    ensures var r := SlotsIn(Some((open, close)), duration, bookings);
      && (!Clock.InDateRange(close - duration) ==> r == [])
      && (Clock.InDateRange(close - duration) ==>
            |r| == (if close - open >= duration then (close - open - duration) / SlotInterval + 1 else 0))
      && (forall i :: 0 <= i < |r| ==> r[i].startTime == open + i * SlotInterval)
      && (forall i :: 0 <= i < |r| ==> open <= r[i].startTime <= close - duration)
      && (forall i :: 0 <= i < |r| ==> r[i].id == r[i].startTime && r[i].endTime == r[i].startTime + duration)
      && (forall i :: 0 <= i < |r| ==>
            (!r[i].available <==> exists b :: 0 <= b < |bookings| && OverlapsAsWritten(r[i].startTime, r[i].endTime, bookings[b])))
  {
    if Clock.InDateRange(close - duration) {
      var r := SlotsFrom(open, close - duration, duration, bookings);
      assert SlotsIn(Some((open, close)), duration, bookings) == r;
      forall i | 0 <= i < |r| ensures open <= r[i].startTime <= close - duration {
        assert i * SlotInterval <= (|r| - 1) * SlotInterval;
      }
    }
  }

  /** The slots of an open day whose times parse, opening at `open` and closing at `close`
      (instants on the date's day), have the shape `SlotsInShape` describes. */
  lemma SlotsOfOpenDay(date: int, hours: seq<BusinessHours>, duration: int, bookings: seq<Interval>,
                       h: BusinessHours, open: int, close: int)
    requires FindForDay(hours, Clock.Weekday(date)) == Some(h) && h.isOpen
    requires Window(date, h) == Some((open, close))
    ensures GenerateTimeSlots(date, hours, duration, bookings) == SlotsIn(Some((open, close)), duration, bookings)
    ensures open == Clock.DayStart(date) + Text.ClockOffset(h.openTime).value
    ensures close == Clock.DayStart(date) + Text.ClockOffset(h.closeTime).value
  {
  }

  /** An open day whose opening or closing time carries the instant past the range of a `Date`
      (a closing time of `"2400000000:00"` on any day after 1 January 1970, say) has no slots. */
  lemma OutOfRangeTimeNoSlots(date: int, hours: seq<BusinessHours>, duration: int, bookings: seq<Interval>,
                              h: BusinessHours, t: string)
    requires FindForDay(hours, Clock.Weekday(date)) == Some(h)
    requires t == h.openTime || t == h.closeTime
    requires Text.ClockOffset(t).Some? && !Clock.InDateRange(Clock.DayStart(date) + Text.ClockOffset(t).value)
    ensures DayWindow(date, hours).None?
    ensures GenerateTimeSlots(date, hours, duration, bookings) == []
  {
  }

  /** The default weekday, 09:00 to 17:00, with a one-hour service and no bookings: fifteen
      available slots, 09:00, 09:30, … 16:00, the last ending at closing time. */
  lemma DefaultDayHourly(day: int)
    requires Clock.InDateRange(day * Clock.MinutesPerDay + 1020)
    ensures var r := SlotsIn(Some((day * Clock.MinutesPerDay + 540, day * Clock.MinutesPerDay + 1020)), 60, []);
      && |r| == 15
      && r[0].startTime == day * Clock.MinutesPerDay + 540
      && r[14].endTime == day * Clock.MinutesPerDay + 1020
      && forall t :: t in r ==> t.available
  {
    var open := day * Clock.MinutesPerDay + 540;
    SlotsInShape(open, open + 480, 60, []);
    NoBookingsAllAvailable(Some((open, open + 480)), 60);
  }

  /** "09:00", the default opening time, is minute 540 of the day. */
  lemma DefaultOpenParses()
    ensures Text.ClockOffset("09:00") == Some(540)
  {
    assert "09:00" == ['0', '9', ':', '0', '0'];
    Text.ClockOffsetOfChars('0', '9', '0', '0');
  }

  /** "17:00", the default closing time, is minute 1020 of the day. */
  lemma DefaultCloseParses()
    ensures Text.ClockOffset("17:00") == Some(1020)
  {
    assert "17:00" == ['1', '7', ':', '0', '0'];
    Text.ClockOffsetOfChars('1', '7', '0', '0');
  }

  /** Every slot of `SlotsIn` is a `MakeSlot` at its own start. */
  lemma SlotsInMembers(w: Option<(int, int)>, duration: int, bookings: seq<Interval>, t: TimeSlot)
    requires t in SlotsIn(w, duration, bookings)
    ensures t == MakeSlot(t.startTime, duration, bookings)
  {
    var r := SlotsIn(w, duration, bookings);
    var i :| 0 <= i < |r| && r[i] == t;
  }

  /** Consecutive slots are 30 minutes apart, so starts strictly ascend. */
  lemma SlotsAscend(w: Option<(int, int)>, duration: int, bookings: seq<Interval>)
    ensures var r := SlotsIn(w, duration, bookings);
      && (forall i :: 0 < i < |r| ==> r[i].startTime == r[i - 1].startTime + SlotInterval)
      && (forall i, j :: 0 <= i < j < |r| ==> r[i].startTime < r[j].startTime)
  {
  }

  /** Without bookings every slot is available. */
  lemma NoBookingsAllAvailable(w: Option<(int, int)>, duration: int)
    ensures forall t :: t in SlotsIn(w, duration, []) ==> t.available
  {
    forall t | t in SlotsIn(w, duration, []) ensures t.available {
      SlotsInMembers(w, duration, [], t);
    }
  }

  /** With positive-length slots and bookings, a slot is unavailable exactly when it shares an
      instant with some booking. */
  lemma UnavailableIffIntersects(w: Option<(int, int)>, duration: int, bookings: seq<Interval>, t: TimeSlot)
    requires duration > 0
    requires forall b :: b in bookings ==> b.start < b.end
    requires t in SlotsIn(w, duration, bookings)
    ensures !t.available <==> exists b :: b in bookings && Intersects(t.startTime, t.endTime, b)
  {
    SlotsInMembers(w, duration, bookings, t);
    forall b | b in bookings
      ensures OverlapsAsWritten(t.startTime, t.endTime, b) <==> Intersects(t.startTime, t.endTime, b)
    {
      OverlapIsIntersection(t.startTime, t.endTime, b);
    }
  }

  /** The `while` loop of `generateTimeSlots`, from `start` while the candidate is not after
      `lastStartTime`, step by step computes `SlotsFrom`. */
  method SlotsLoop(start: int, lastStartTime: int, duration: int, bookings: seq<Interval>)
    returns (slots: seq<TimeSlot>)
    ensures slots == SlotsFrom(start, lastStartTime, duration, bookings)
  {
    ghost var all := SlotsFrom(start, lastStartTime, duration, bookings);
    slots := [];
    var current := start;
    while current <= lastStartTime
      invariant current == start + |slots| * SlotInterval
      invariant |slots| <= |all|
      invariant slots == all[..|slots|]
      invariant current <= lastStartTime ==> |slots| < |all|
      invariant current > lastStartTime ==> |slots| == |all|
      decreases lastStartTime - current
    {
      var currentEnd := current + duration;
      var isAvailable := !AnyOverlap(current, currentEnd, bookings);
      slots := slots + [TimeSlot(current, current, currentEnd, isAvailable)];
      current := current + SlotInterval;
    }
    assert slots == all;
  }

  /** `generateTimeSlots` as the source writes it, with its early returns and its loop. */
  method GenerateTimeSlotsLoop(date: int, hours: seq<BusinessHours>, duration: int, bookings: seq<Interval>)
    returns (slots: seq<TimeSlot>)
    ensures slots == GenerateTimeSlots(date, hours, duration, bookings)
  {
    var window := DayWindow(date, hours);
    assert GenerateTimeSlots(date, hours, duration, bookings) == SlotsIn(window, duration, bookings);
    if window.None? {
      return [];
    }
    var lastStartTime := window.value.1 - duration;
    if !Clock.InDateRange(lastStartTime) {
      return [];
    }
    slots := SlotsLoop(window.value.0, lastStartTime, duration, bookings);
  }
}

=== FILE: calendar.dfy ===
/**
  The date picker's `disabledDays` rule (`BookingCalendar.jsx`): which calendar days a customer
  may not pick, given today, the opening hours and the service chosen so far.
*/
module Calendar {
  import opened Wrappers
  import Clock
  import opened Hours
  import Catalog
  import Availability

  /** The service restricts the weekdays it is offered on: it lists at least one. */
  predicate Restricts(service: Option<Catalog.Service>) {
    service.Some? && |service.value.availableDays| > 0
  }

  /** `disabledDays(date)`: past days, closed weekdays and, when the chosen service lists its
      weekdays, every other weekday are disabled. */
  function IsDisabled(date: int, today: int, hours: seq<BusinessHours>, service: Option<Catalog.Service>): (r: bool)
    ensures Clock.IsPastDate(date, today) ==> r
    ensures !Availability.IsBusinessOpen(date, hours) ==> r
    ensures !Restricts(service) ==> (r <==> Clock.IsPastDate(date, today) || !Availability.IsBusinessOpen(date, hours))
  {
    if Clock.IsPastDate(date, today) then true
    else if !Availability.IsBusinessOpen(date, hours) then true
    else if Restricts(service) then Clock.Weekday(date) !in service.value.availableDays
    else false
  }

  /** A day is selectable exactly when it is today or later, its weekday is open, and the
      service, if it lists weekdays, lists this one. */
  lemma {:induction false} SelectableIff(date: int, today: int, hours: seq<BusinessHours>, service: Option<Catalog.Service>)
    ensures !IsDisabled(date, today, hours, service) <==>
      && Clock.Day(date) >= Clock.Day(today)
      && Availability.IsBusinessOpen(date, hours)
      && (Restricts(service) ==> Clock.Weekday(date) in service.value.availableDays)
  {
    assert Clock.IsPastDate(date, today) <==> Clock.Day(date) < Clock.Day(today);
  }

  /** Choosing a service only ever disables more days than choosing none. */
  lemma ServiceOnlyNarrows(date: int, today: int, hours: seq<BusinessHours>, service: Catalog.Service)
    ensures IsDisabled(date, today, hours, None) ==> IsDisabled(date, today, hours, Some(service))
  {
  }

  /** The answer depends on the date only through its calendar day: every instant of one day is
      treated alike. */
  lemma {:induction false} SameDaySameAnswer(date: int, other: int, today: int, hours: seq<BusinessHours>,
                                             service: Option<Catalog.Service>)
    requires Clock.Day(date) == Clock.Day(other)
    ensures IsDisabled(date, today, hours, service) == IsDisabled(other, today, hours, service)
  {
    assert Clock.Weekday(date) == Clock.Weekday(other);
  }

  /** A week later the weekday, and so the opening and the service's restriction, are the same:
      only the past-day test can tell two such days apart. */
  lemma {:induction false} WeekLaterSameUnlessPast(date: int, today: int, hours: seq<BusinessHours>,
                                                   service: Option<Catalog.Service>)
    requires !Clock.IsPastDate(date, today)
    ensures IsDisabled(date + 7 * Clock.MinutesPerDay, today, hours, service) == IsDisabled(date, today, hours, service)
  {
    Clock.DayShift(date, 7);
    Clock.WeekdayShift(date, 7);
    assert Clock.Weekday(date + 7 * Clock.MinutesPerDay) == Clock.Weekday(date);
  }
}

=== FILE: catalog.dfy ===
/**
  The service catalogue as the booking pages and the admin panel see it: category defaulting,
  the category list, grouping and filtering by category, selection by id, and the edit form's
  draft of a service (`ServiceSelector.jsx`, `AdminPanel.jsx`).
*/
module Catalog {
  import opened Wrappers
  import Seqs
  import Text

  /** A bookable service. An absent or empty `category` is the empty string; an absent
      `availableDays` is the empty list, which every reader treats the same way. The price is
      not modelled. */
  datatype Service = Service(
    id: string, name: string, duration: int, description: string,
    category: string, availableDays: seq<int>)

  const Uncategorized: string := "Uncategorized"

  /** `service.category || 'Uncategorized'`. */
  function DefaultCategory(s: Service): (c: string)
    ensures c != ""
    ensures s.category != "" ==> c == s.category
    ensures s.category == "" ==> c == Uncategorized
  {
    if s.category == "" then Uncategorized else s.category
  }

  /** The defaulted category of every service, in list order. */
  function CategoryList(services: seq<Service>): (r: seq<string>)
    ensures |r| == |services|
    ensures forall i :: 0 <= i < |r| ==> r[i] == DefaultCategory(services[i])
  {
    if |services| == 0 then []
    else CategoryList(services[..|services| - 1]) + [DefaultCategory(services[|services| - 1])]
  }

  /** `categories` in the service selector: each defaulted category once, in order of first
      occurrence. */
  function Categories(services: seq<Service>): (r: seq<string>)
    ensures Seqs.NoDuplicates(r)
    ensures forall c :: c in r <==> c in CategoryList(services)
    ensures Seqs.InFirstOccurrenceOrder(CategoryList(services), r)
  {
    var cats := CategoryList(services);
    Seqs.Dedup(cats)
  }

  /** The services whose defaulted category is `c`, in list order. */
  function InCategory(services: seq<Service>, c: string): (r: seq<Service>)
    ensures |r| <= |services|
    ensures forall s :: s in r ==> s in services && DefaultCategory(s) == c
    ensures forall s :: s in services && DefaultCategory(s) == c ==> s in r
  {
    if |services| == 0 then []
    else
      var init, last := services[..|services| - 1], services[|services| - 1];
      assert services == init + [last];
      InCategory(init, c) + (if DefaultCategory(last) == c then [last] else [])
  }

  /** Selecting a category from a concatenation selects from each part, in order: with
      `InCategorySingle` this is `Array.filter`, order and repetitions included. */
  lemma {:induction false} InCategoryAppend(a: seq<Service>, b: seq<Service>, c: string)
    ensures InCategory(a + b, c) == InCategory(a, c) + InCategory(b, c)
    decreases |b|
  {
    if |b| == 0 {
      assert a + b == a;
    } else {
      var init, last := b[..|b| - 1], b[|b| - 1];
      assert (a + b)[..|a + b| - 1] == a + init && (a + b)[|a + b| - 1] == last;
      InCategoryAppend(a, init, c);
    }
  }

  /** One service is selected exactly when its defaulted category is `c`. */
  lemma InCategorySingle(s: Service, c: string)
    ensures InCategory([s], c) == if DefaultCategory(s) == c then [s] else []
  {
    assert [s][..0] == [];
  }

  /** `groupedServices`: the services pushed one by one onto the group of their defaulted
      category. */
  function GroupedServices(services: seq<Service>): (groups: map<string, seq<Service>>)
    ensures forall c :: c in groups <==> c in CategoryList(services)
  {
    if |services| == 0 then map[]
    else
      var init, last := services[..|services| - 1], services[|services| - 1];
      var before := GroupedServices(init);
      var c := DefaultCategory(last);
      assert CategoryList(services) == CategoryList(init) + [c];
      if c in before then before[c := before[c] + [last]] else before[c := [last]]
  }

  /** The property names every plain object inherits from `Object.prototype`. */
  const PrototypeKeys: set<string> := {
    "constructor", "hasOwnProperty", "isPrototypeOf", "propertyIsEnumerable", "toLocaleString",
    "toString", "valueOf", "__proto__", "__defineGetter__", "__defineSetter__",
    "__lookupGetter__", "__lookupSetter__"}

  /** Some service's defaulted category names an inherited property. */
  predicate GroupingThrows(services: seq<Service>) {
    exists i :: 0 <= i < |services| && DefaultCategory(services[i]) in PrototypeKeys
  }

  /** `groupedServices` as written, on `const groups = {}`: for an inherited name `groups[c]` is
      the inherited member, which is truthy, so no array is made and `push` throws (`None`).
      On every other list the result is the grouping. */
  function GroupedServicesAsWritten(services: seq<Service>): (r: Option<map<string, seq<Service>>>)
    ensures r.None? <==> GroupingThrows(services)
    ensures r.Some? ==> r.value == GroupedServices(services)
  {
    if |services| == 0 then Some(map[])
    else
      var init, last := services[..|services| - 1], services[|services| - 1];
      var c := DefaultCategory(last);
      assert forall i :: 0 <= i < |init| ==> init[i] == services[i];
      assert GroupingThrows(services) <==> GroupingThrows(init) || c in PrototypeKeys;
      match GroupedServicesAsWritten(init)
      case None => None
      case Some(before) =>
        if c in PrototypeKeys then None
        else if c in before then Some(before[c := before[c] + [last]])
        else Some(before[c := [last]])
  }

  /** A service in the category `"constructor"`, which the admin's "add category" accepts,
      makes the grouping throw. */
  lemma ConstructorCategoryThrows(services: seq<Service>, i: int)
    requires 0 <= i < |services| && services[i].category == "constructor"
    ensures GroupedServicesAsWritten(services).None?
  {
    assert DefaultCategory(services[i]) in PrototypeKeys;
  }

  /** Each group holds exactly the services of its category, in list order. */
  lemma {:induction false} GroupIsCategory(services: seq<Service>, c: string)
    requires c in GroupedServices(services)
    ensures GroupedServices(services)[c] == InCategory(services, c)
  {
    var init, last := services[..|services| - 1], services[|services| - 1];
    var before := GroupedServices(init);
    if c in before {
      GroupIsCategory(init, c);
    } else {
      assert CategoryList(services) == CategoryList(init) + [DefaultCategory(last)];
      assert c == DefaultCategory(last);
      EmptyCategory(init, c);
    }
  }

  /** A category no service has selects nothing. */
  lemma {:induction false} EmptyCategory(services: seq<Service>, c: string)
    requires c !in CategoryList(services)
    ensures InCategory(services, c) == []
  {
    if |services| > 0 {
      var init := services[..|services| - 1];
      assert CategoryList(services) == CategoryList(init) + [DefaultCategory(services[|services| - 1])];
      EmptyCategory(init, c);
    }
  }

  /** Grouping is a partition: every service sits in the group of its defaulted category and in
      no other. */
  lemma GroupsPartition(services: seq<Service>, s: Service)
    requires s in services
    ensures DefaultCategory(s) in GroupedServices(services)
    ensures s in GroupedServices(services)[DefaultCategory(s)]
    ensures forall c :: c in GroupedServices(services) && c != DefaultCategory(s) ==>
              s !in GroupedServices(services)[c]
  {
    var i :| 0 <= i < |services| && services[i] == s;
    assert CategoryList(services)[i] == DefaultCategory(s);
    forall c | c in GroupedServices(services)
      ensures GroupedServices(services)[c] == InCategory(services, c)
    {
      GroupIsCategory(services, c);
    }
  }

  /** `filteredServices`: the whole list for `"all"`, otherwise the services of that category. */
  function FilteredServices(services: seq<Service>, filter: string): (r: seq<Service>)
    ensures filter == "all" ==> r == services
    ensures filter != "all" ==> forall s :: s in r <==> s in services && DefaultCategory(s) == filter
    ensures filter != "all" ==> r == InCategory(services, filter)
  {
    if filter == "all" then services else InCategory(services, filter)
  }

  /** Any filter other than `"all"` shows exactly that category's group, and nothing for a
      category no service has. */
  lemma FilterIsGroup(services: seq<Service>, filter: string)
    requires filter != "all"
    ensures filter in GroupedServices(services) ==> FilteredServices(services, filter) == GroupedServices(services)[filter]
    ensures filter !in GroupedServices(services) ==> FilteredServices(services, filter) == []
  {
    if filter in GroupedServices(services) {
      GroupIsCategory(services, filter);
    } else {
      EmptyCategory(services, filter);
    }
  }

  /** `services.find((s) => s.id === value)`; the selection handler is called only on a hit. */
  function FindById(services: seq<Service>, id: string): (r: Option<Service>)
    ensures r.None? <==> forall i :: 0 <= i < |services| ==> services[i].id != id
    ensures r.Some? ==> r.value in services && r.value.id == id
  {
    if |services| == 0 then None
    else if services[0].id == id then Some(services[0])
    else FindById(services[1..], id)
  }

  /** `find` returns the first service with the id, not any later one. */
  lemma {:induction false} FindByIdFirst(services: seq<Service>, id: string, i: int)
    requires 0 <= i < |services| && services[i].id == id
    requires forall j :: 0 <= j < i ==> services[j].id != id
    ensures FindById(services, id) == Some(services[i])
  {
    if i > 0 {
      FindByIdFirst(services[1..], id, i - 1);
    }
  }

  /** `serviceCategories` in the admin panel: `'Uncategorized'` first, then the services'
      defaulted categories and the locally added ones, each once. */
  function ServiceCategories(services: seq<Service>, local: seq<string>): (r: seq<string>)
    ensures |r| > 0 && r[0] == Uncategorized
    ensures Seqs.NoDuplicates(r)
    ensures forall i :: 0 <= i < |services| ==> DefaultCategory(services[i]) in r
    ensures forall i :: 0 <= i < |local| ==> local[i] in r
    ensures forall c :: c in r ==> c == Uncategorized || c in local || c in CategoryList(services)
  {
    var cats := CategoryList(services);
    var inner := Seqs.Dedup(cats + local);
    Seqs.DedupJoin(Uncategorized, cats, local);
    Seqs.Dedup([Uncategorized] + inner)
  }

  /** The edit form's copy of a service (`editedService`). */
  datatype ServiceDraft = ServiceDraft(
    name: string, duration: int, description: string, availableDays: seq<int>, category: string)

  /** `handleEditService`: copies the editable fields, defaulting the category. */
  function EditService(s: Service): (d: ServiceDraft)
    ensures d.name == s.name && d.duration == s.duration && d.description == s.description
    ensures d.availableDays == s.availableDays
    ensures d.category != "" && d.category == DefaultCategory(s)
  {
    ServiceDraft(s.name, s.duration, s.description, s.availableDays, DefaultCategory(s))
  }

  /** Saving a draft and editing the saved service again gives the same draft back. */
  lemma EditSaved(s: Service)
    ensures var d := EditService(s);
            EditService(Service(s.id, d.name, d.duration, d.description, d.category, d.availableDays)) == d
  {
  }

  /** The "add category" button: a name whose trimmed text is non-empty becomes the draft's
      category and is appended to the local categories; any other name changes nothing. */
  function AddCategory(draft: ServiceDraft, local: seq<string>, typed: string): (r: (ServiceDraft, seq<string>))
    ensures Text.Trim(typed) == [] ==> r == (draft, local)
    ensures Text.Trim(typed) != [] ==>
              && r.0 == draft.(category := Text.Trim(typed))
              && r.1 == local + [Text.Trim(typed)]
              && !Text.IsSpace(r.0.category[0]) && !Text.IsSpace(r.0.category[|r.0.category| - 1])
  {
    var name := Text.Trim(typed);
    if name != [] then (draft.(category := name), local + [name]) else (draft, local)
  }

  /** An inherited property name is accepted as a category like any other. */
  lemma PrototypeNameAccepted(draft: ServiceDraft, local: seq<string>)
    ensures AddCategory(draft, local, "constructor").0.category == "constructor"
    ensures AddCategory(draft, local, "constructor").0.category in PrototypeKeys
  {
    assert Text.Trim("constructor") == "constructor";
  }

  /** A name made only of white space is never accepted as a category. */
  lemma BlankCategoryRejected(draft: ServiceDraft, local: seq<string>, typed: string)
    requires forall i :: 0 <= i < |typed| ==> Text.IsSpace(typed[i])
    ensures AddCategory(draft, local, typed) == (draft, local)
  {
  }

  // ---- the availableDays toggle ----

  /** Days sort by their own number. */
  function Self(d: int): int {
    d
  }

  /** `handleAddAvailableDay` / `handleAddEditAvailableDay`: a day not yet listed is added and
      the list sorted numerically; a listed day is removed. */
  function ToggleAvailableDay(days: seq<int>, day: int): (r: seq<int>)
    ensures day in r <==> day !in days
    ensures forall d :: d != day ==> (d in r <==> d in days)
    ensures day !in days ==> Seqs.SortedBy(r, Self) && |r| == |days| + 1
    ensures Seqs.SortedBy(days, Self) ==> Seqs.SortedBy(r, Self)
    ensures Seqs.StrictlySortedBy(days, Self) ==> Seqs.StrictlySortedBy(r, Self)
  {
    if day !in days then
      var added := days + [day];
      var r := Seqs.SortBy(added, Self);
      assert forall d :: d in r <==> d in added by {
        forall d ensures d in r <==> d in added {
          if d in r { var k :| 0 <= k < |r| && r[k] == d; }
          if d in added { var k :| 0 <= k < |added| && added[k] == d; }
        }
      }
      if Seqs.StrictlySortedBy(days, Self) then
        assert forall i, j :: 0 <= i < j < |added| ==> Self(added[i]) != Self(added[j]);
        Seqs.SortByStrict(added, Self);
        r
      else
        r
    else
      if Seqs.StrictlySortedBy(days, Self) then
        RemoveDaySorted(days, day);
        RemoveDayStrict(days, day);
        RemoveDay(days, day)
      else if Seqs.SortedBy(days, Self) then
        RemoveDaySorted(days, day);
        RemoveDay(days, day)
      else
        RemoveDay(days, day)
  }

  /** `days.filter(d => d !== day)`. */
  function RemoveDay(days: seq<int>, day: int): (r: seq<int>)
    ensures |r| <= |days|
    ensures forall k :: 0 <= k < |r| ==> r[k] in days && r[k] != day
    ensures forall k :: 0 <= k < |days| && days[k] != day ==> days[k] in r
  {
    if |days| == 0 then []
    else
      assert forall k :: 0 <= k < |days| ==> k == 0 || days[k] == days[1..][k - 1];
      (if days[0] == day then [] else [days[0]]) + RemoveDay(days[1..], day)
  }

  /** Removing a value keeps an ascending list ascending. */
  lemma {:induction false} RemoveDaySorted(days: seq<int>, day: int)
    requires Seqs.SortedBy(days, Self)
    ensures Seqs.SortedBy(RemoveDay(days, day), Self)
  {
    if |days| > 0 {
      var tail := days[1..];
      assert forall k :: 0 <= k < |tail| ==> tail[k] == days[k + 1];
      RemoveDaySorted(tail, day);
      var rest := RemoveDay(tail, day);
      RemovedAbove(tail, day, days[0] - 1);
      if days[0] != day {
        Seqs.SortedCons(days[0], rest, Self);
      } else {
        assert [] + rest == rest;
      }
    }
  }

  /** Removing a value keeps a strictly ascending list strictly ascending. */
  lemma {:induction false} RemoveDayStrict(days: seq<int>, day: int)
    requires Seqs.StrictlySortedBy(days, Self)
    ensures Seqs.StrictlySortedBy(RemoveDay(days, day), Self)
  {
    if |days| > 0 {
      var tail := days[1..];
      assert forall k :: 0 <= k < |tail| ==> tail[k] == days[k + 1];
      RemoveDayStrict(tail, day);
      var rest := RemoveDay(tail, day);
      RemovedAbove(tail, day, days[0]);
      if days[0] != day {
        Seqs.StrictCons(days[0], rest, Self);
      } else {
        assert [] + rest == rest;
      }
    }
  }

  /** What is left after a removal is still above any bound the whole list is above. */
  lemma RemovedAbove(days: seq<int>, day: int, bound: int)
    requires forall k :: 0 <= k < |days| ==> bound < days[k]
    ensures forall k :: 0 <= k < |RemoveDay(days, day)| ==> bound < Self(RemoveDay(days, day)[k])
  {
    var rest := RemoveDay(days, day);
    forall k | 0 <= k < |rest| ensures bound < Self(rest[k]) {
      var m :| 0 <= m < |days| && days[m] == rest[k];
    }
  }

  /** Toggling a day twice on a strictly ascending list (which the toggle keeps strictly
      ascending) restores the list. */
  lemma ToggleTwice(days: seq<int>, day: int)
    requires Seqs.StrictlySortedBy(days, Self)
    ensures ToggleAvailableDay(ToggleAvailableDay(days, day), day) == days
  {
    var twice := ToggleAvailableDay(ToggleAvailableDay(days, day), day);
    StrictUnique(twice, days);
  }

  /** Two strictly ascending lists with the same elements are equal. */
  lemma {:induction false} StrictUnique(a: seq<int>, b: seq<int>)
    requires Seqs.StrictlySortedBy(a, Self) && Seqs.StrictlySortedBy(b, Self)
    requires forall d :: d in a <==> d in b
    ensures a == b
  {
    if |a| > 0 {
      assert a[0] in a;
    }
    if |b| > 0 {
      assert b[0] in b;
    }
    if |a| > 0 && |b| > 0 {
      HeadIsLeast(a, b[0]);
      HeadIsLeast(b, a[0]);
      var ta, tb := a[1..], b[1..];
      assert forall k :: 0 <= k < |ta| ==> ta[k] == a[k + 1];
      assert forall k :: 0 <= k < |tb| ==> tb[k] == b[k + 1];
      forall d ensures d in ta <==> d in tb {
        TailMembers(a, d);
        TailMembers(b, d);
      }
      StrictUnique(ta, tb);
      assert a == [a[0]] + ta && b == [b[0]] + tb;
    }
  }

  /** The head of a strictly ascending list is its least element. */
  lemma HeadIsLeast(a: seq<int>, d: int)
    requires Seqs.StrictlySortedBy(a, Self) && |a| > 0 && d in a
    ensures a[0] <= d
  {
    var k :| 0 <= k < |a| && a[k] == d;
    if k > 0 { assert Self(a[0]) < Self(a[k]); }
  }

  /** In a strictly ascending list, the tail holds exactly the elements other than the head. */
  lemma TailMembers(a: seq<int>, d: int)
    requires Seqs.StrictlySortedBy(a, Self) && |a| > 0
    ensures d in a[1..] <==> d in a && d != a[0]
  {
    if d in a[1..] {
      var k :| 0 <= k < |a[1..]| && a[1..][k] == d;
      assert a[k + 1] == d && Self(a[0]) < Self(a[k + 1]);
    }
    if d in a && d != a[0] {
      var k :| 0 <= k < |a| && a[k] == d;
      assert a[1..][k - 1] == d;
    }
  }
}

=== FILE: clock.dfy ===
/**
  The salon's timeline. An instant is a whole number of minutes on a local clock without
  daylight-saving jumps; minute 0 is midnight at the start of Thursday 1 January 1970.
  Calendar days, weekdays in the `Date.getDay` numbering (0 = Sunday … 6 = Saturday) and the
  day-level helpers of `dateUtils.js` are defined on top of it.
*/
module Clock {

  const MinutesPerDay: int := 1440

  /** The furthest instant from minute 0 a JavaScript `Date` can hold: 8.64e15 milliseconds,
      100 000 000 days. Beyond it a `Date` is invalid (section 21.4.1.31, TimeClip, of
      ECMA-262). */
  const MaxInstant: int := 144_000_000_000

  /** The instant is one a valid `Date` can hold. */
  predicate InDateRange(t: int) {
    -MaxInstant <= t <= MaxInstant
  }

  /** The ordinal of the calendar day an instant falls on (day 0 = 1 January 1970). */
  function Day(t: int): int {
    t / MinutesPerDay
  }

  /** Midnight of the instant's day: what `setHours(0, 0, 0, 0)` leaves. */
  function DayStart(t: int): (r: int)
    ensures r <= t < r + MinutesPerDay
    ensures r % MinutesPerDay == 0 && Day(r) == Day(t)
  {
    Day(t) * MinutesPerDay
  }

  /** `date.getDay()`: 0 = Sunday … 6 = Saturday. Day 0 was a Thursday. */
  function Weekday(t: int): (w: int)
    ensures 0 <= w < 7
  {
    (Day(t) + 4) % 7
  }

  /** Moving an instant by whole days moves its day ordinal by the same amount. */
  lemma DayShift(t: int, k: int)
    ensures Day(t + k * MinutesPerDay) == Day(t) + k
  {
    var q, r := t / MinutesPerDay, t % MinutesPerDay;
    assert t == q * MinutesPerDay + r;
    assert t + k * MinutesPerDay == (q + k) * MinutesPerDay + r;
  }

  /** Moving an instant by whole days moves its weekday round the week by the same amount. */
  lemma WeekdayShift(t: int, k: int)
    ensures Weekday(t + k * MinutesPerDay) == (Weekday(t) + k) % 7
  {
    DayShift(t, k);
  }

  /** The first instant of the given day ordinal lies on that day. */
  lemma DayOfMidnight(d: int)
    ensures Day(d * MinutesPerDay) == d
  {
    DayShift(0, d);
  }

  /** `isPastDate(date)`, with "today" passed in: both instants are truncated to midnight and
      compared. The result depends on calendar days only. */
  function IsPastDate(date: int, today: int): (r: bool)
    ensures r <==> Day(date) < Day(today)
    ensures r <==> date < DayStart(today)
    ensures Day(date) == Day(today) ==> !r
  {
    DayStart(date) < DayStart(today)
  }

  /** Every instant of today is not in the past, whatever the time of day. */
  lemma {:induction false} TodayNotPast(date: int, today: int)
    requires DayStart(today) <= date < DayStart(today) + MinutesPerDay
    ensures !IsPastDate(date, today)
  {
    DayOfMidnight(Day(today));
    DayShift(DayStart(today), 1);
  }

  /** `getNextDays(startDate, daysToShow)`: `daysToShow` consecutive days, the first being
      `startDate` itself, each at the same time of day. */
  method GetNextDays(start: int, daysToShow: int) returns (dates: seq<int>)
    ensures |dates| == if daysToShow < 0 then 0 else daysToShow
    ensures forall i :: 0 <= i < |dates| ==> dates[i] == start + i * MinutesPerDay
    ensures forall i :: 0 <= i < |dates| ==> Day(dates[i]) == Day(start) + i
    ensures forall i :: 0 <= i < |dates| ==> Weekday(dates[i]) == (Weekday(start) + i) % 7
  {
    dates := [];
    var i := 0;
    while i < daysToShow
      invariant 0 <= i && |dates| == i
      invariant i <= (if daysToShow < 0 then 0 else daysToShow)
      invariant forall j :: 0 <= j < i ==> dates[j] == start + j * MinutesPerDay
      invariant forall j :: 0 <= j < i ==> Day(dates[j]) == Day(start) + j
      invariant forall j :: 0 <= j < i ==> Weekday(dates[j]) == (Weekday(start) + j) % 7
    {
      DayShift(start, i);
      WeekdayShift(start, i);
      dates := dates + [start + i * MinutesPerDay];
      i := i + 1;
    }
  }
}

=== FILE: flow.dfy ===
/**
  The customer booking flow of the salon page (`Index.jsx`) and of the shared-link page
  (`BookingLink.jsx`): one state record and one pure transition per handler, tab click and
  button. The salon page goes service → date and time → details → payment → confirmation; the
  shared page has no payment step and books straight from the details form.
*/
module Flow {
  import opened Wrappers
  import Clock
  import opened Hours
  import Catalog
  import Availability
  import Calendar

  datatype Page = Salon | SharedLink

  datatype Step = ServiceStep | DateTime | Details | PaymentStep | Confirmation

  /** A booking as the details form builds it. */
  datatype Booking = Booking(serviceId: string, date: int, timeSlotId: int, customerName: string,
                             customerEmail: string, customerPhone: string, notes: string, status: string)

  /** A booking as `addBooking` returns it, with its new document id. */
  datatype Saved = Saved(id: string, booking: Booking)

  /** The details form's values; `notes` is `None` when left undefined. */
  datatype FormValues = FormValues(name: string, email: string, phone: string, notes: Option<string>)

  /** The outcome of an `addBooking` call: it threw, or it saved under a new id. */
  datatype SaveResult = SaveFailed | SavedAs(id: string)

  /** The page state the handlers read and write. */
  datatype FlowState = FlowState(
    page: Page,
    step: Step,
    service: Option<Catalog.Service>,
    date: Option<int>,
    slot: Option<Availability.TimeSlot>,
    slots: seq<Availability.TimeSlot>,
    bookingData: Option<Booking>,
    confirmed: Option<Saved>,
    bookings: seq<Saved>,
    services: seq<Catalog.Service>,
    hours: seq<BusinessHours>)

  /** The state a page starts in, once its services, hours and bookings are loaded. */
  function Start(page: Page, services: seq<Catalog.Service>, hours: seq<BusinessHours>, bookings: seq<Saved>): (s: FlowState)
    ensures s.page == page && s.step == ServiceStep
    ensures s.service.None? && s.date.None? && s.slot.None? && s.bookingData.None? && s.confirmed.None?
  {
    FlowState(page, ServiceStep, None, None, None, [], None, None, bookings, services, hours)
  }

  // ---- handlers ----

  /** `handleSelectService(service)`: the service is chosen, the date and time step opens, and
      the date and slot chosen before are cleared. */
  function SelectService(s: FlowState, service: Catalog.Service): (r: FlowState)
    ensures r.service == Some(service) && r.step == DateTime && r.date.None? && r.slot.None?
    ensures r.bookingData == s.bookingData && r.confirmed == s.confirmed && r.slots == s.slots
    ensures r.bookings == s.bookings && r.services == s.services && r.page == s.page
  {
    s.(service := Some(service), step := DateTime, date := None, slot := None)
  }

  /** Picking a day in the calendar: a day the calendar disables cannot be picked. */
  function SelectDate(s: FlowState, date: int, today: int): (r: FlowState)
    ensures Calendar.IsDisabled(date, today, s.hours, s.service) ==> r == s
    ensures !Calendar.IsDisabled(date, today, s.hours, s.service) ==> r == s.(date := Some(date))
  {
    if Calendar.IsDisabled(date, today, s.hours, s.service) then s else s.(date := Some(date))
  }

  /** `bookedSlots`: each booking of the day becomes the interval from its start lasting the
      duration of the service selected now, whatever service it was for. */
  function BookedIntervals(dayBookings: seq<Saved>, duration: int): (r: seq<Availability.Interval>)
    ensures |r| == |dayBookings|
    ensures forall i :: 0 <= i < |r| ==>
      r[i].start == dayBookings[i].booking.date && r[i].end == dayBookings[i].booking.date + duration
  {
    if |dayBookings| == 0 then []
    else [Availability.Interval(dayBookings[0].booking.date, dayBookings[0].booking.date + duration)]
         + BookedIntervals(dayBookings[1..], duration)
  }

  /** The slot effect: with a date and a service chosen, the slots are regenerated from that
      day's bookings (`dayBookings`, the result of the day query) and the chosen slot is
      cleared; without both, nothing happens. */
  function LoadSlots(s: FlowState, dayBookings: seq<Saved>): (r: FlowState)
    ensures s.date.None? || s.service.None? ==> r == s
    ensures s.date.Some? && s.service.Some? ==>
      r == s.(slots := Availability.GenerateTimeSlots(s.date.value, s.hours, s.service.value.duration,
                                                      BookedIntervals(dayBookings, s.service.value.duration)),
              slot := None)
  {
    if s.date.Some? && s.service.Some? then
      s.(slots := Availability.GenerateTimeSlots(s.date.value, s.hours, s.service.value.duration,
                                                 BookedIntervals(dayBookings, s.service.value.duration)),
         slot := None)
    else s
  }

  /** Clicking slot `index` of the list shown under a chosen date: only an available slot is
      passed on and chosen. */
  function SelectSlot(s: FlowState, index: int): (r: FlowState)
    ensures r.slot.Some? && r.slot != s.slot ==> r.slot.value in s.slots && r.slot.value.available
    ensures 0 <= index < |s.slots| && s.step == DateTime && s.date.Some? && s.slots[index].available ==>
      r == s.(slot := Some(s.slots[index]))
    ensures !(0 <= index < |s.slots| && s.step == DateTime && s.date.Some? && s.slots[index].available) ==> r == s
  {
    if 0 <= index < |s.slots| && s.step == DateTime && s.date.Some? && s.slots[index].available then
      s.(slot := Some(s.slots[index]))
    else s
  }

  /** The "continue" button under the slots, enabled only with a slot chosen. */
  function Continue(s: FlowState): (r: FlowState)
    ensures s.step == DateTime && s.slot.Some? ==> r == s.(step := Details)
    ensures !(s.step == DateTime && s.slot.Some?) ==> r == s
  {
    if s.step == DateTime && s.slot.Some? then s.(step := Details) else s
  }

  /** The booking the details form builds: the slot's start and id, `notes || ""`, and status
      `"confirmed"`. */
  function NewBooking(service: Catalog.Service, slot: Availability.TimeSlot, form: FormValues): (b: Booking)
    ensures b.serviceId == service.id && b.date == slot.startTime && b.timeSlotId == slot.id
    ensures b.customerName == form.name && b.customerEmail == form.email && b.customerPhone == form.phone
    ensures b.notes == (if form.notes.Some? then form.notes.value else "")
    ensures b.status == "confirmed"
  {
    Booking(service.id, slot.startTime, slot.id, form.name, form.email, form.phone, form.notes.GetOr(""), "confirmed")
  }

  /** `handleBookingSubmit(form)`. Without a service, slot and date nothing changes. The salon
      page keeps the booking aside and moves to payment, saving nothing; the shared page saves it
      at once and confirms it, or on a failed save changes nothing. */
  function Submit(s: FlowState, form: FormValues, save: SaveResult): (r: FlowState)
    ensures s.service.None? || s.slot.None? || s.date.None? ==> r == s
    ensures r.service == s.service && r.slot == s.slot && r.date == s.date && r.slots == s.slots
    ensures s.service.Some? && s.slot.Some? && s.date.Some? && s.page == Salon ==>
      && r.step == PaymentStep
      && r.bookingData == Some(NewBooking(s.service.value, s.slot.value, form))
      && r.bookings == s.bookings && r.confirmed == s.confirmed
    ensures s.service.Some? && s.slot.Some? && s.date.Some? && s.page == SharedLink && save.SavedAs? ==>
      var saved := Saved(save.id, NewBooking(s.service.value, s.slot.value, form));
      && r.step == Confirmation
      && r.bookings == s.bookings + [saved] && r.confirmed == Some(saved)
      && r.bookingData == s.bookingData
    ensures s.page == SharedLink && save.SaveFailed? ==> r == s
  {
    if s.service.None? || s.slot.None? || s.date.None? then s
    else
      var b := NewBooking(s.service.value, s.slot.value, form);
      match s.page
      case Salon => s.(bookingData := Some(b), step := PaymentStep)
      case SharedLink =>
        match save
        case SaveFailed => s
        case SavedAs(id) => s.(bookings := s.bookings + [Saved(id, b)], confirmed := Some(Saved(id, b)), step := Confirmation)
  }

  /** `handlePaymentComplete()` on the salon page: without a kept booking, or when the save
      fails, nothing changes; otherwise the kept booking is saved, appended and confirmed. */
  function PaymentComplete(s: FlowState, save: SaveResult): (r: FlowState)
    ensures s.bookingData.None? || save.SaveFailed? ==> r == s
    ensures r.service == s.service && r.slot == s.slot && r.bookingData == s.bookingData
    ensures s.bookingData.Some? && save.SavedAs? ==>
      && r.step == Confirmation
      && r.bookings == s.bookings + [Saved(save.id, s.bookingData.value)]
      && r.confirmed == Some(Saved(save.id, s.bookingData.value))
  {
    match s.bookingData
    case None => s
    case Some(b) =>
      match save
      case SaveFailed => s
      case SavedAs(id) => s.(bookings := s.bookings + [Saved(id, b)], confirmed := Some(Saved(id, b)), step := Confirmation)
  }

  /** The payment form's cancel button, shown on the payment step: back to the details step. */
  function CancelPayment(s: FlowState): (r: FlowState)
    ensures s.step == PaymentStep ==> r == s.(step := Details)
    ensures s.step != PaymentStep ==> r == s
  {
    if s.step == PaymentStep then s.(step := Details) else s
  }

  /** `handleNewBooking()`: service, date, slot and confirmation are cleared and the flow starts
      over. The booking kept for payment is not cleared. */
  function StartOver(s: FlowState): (r: FlowState)
    ensures r.step == ServiceStep && r.service.None? && r.date.None? && r.slot.None? && r.confirmed.None?
    ensures r.bookingData == s.bookingData && r.bookings == s.bookings && r.slots == s.slots
  {
    s.(service := None, date := None, slot := None, confirmed := None, step := ServiceStep)
  }

  /** Clicking a step's tab. No tab works on the confirmation step; the date tab needs a service,
      the details tab a service and a slot, and the payment tab, on the salon page only, a kept
      booking. */
  function ClickTab(s: FlowState, target: Step): (r: FlowState)
    ensures s.step == Confirmation ==> r == s
    ensures r == s || r == s.(step := target)
    ensures r.step == target && target != s.step ==> match target
      case ServiceStep => true
      case DateTime => s.service.Some?
      case Details => s.service.Some? && s.slot.Some?
      case PaymentStep => s.page == Salon && s.bookingData.Some?
      case Confirmation => false
  {
    if s.step == Confirmation then s
    else
      var allowed := match target
        case ServiceStep => true
        case DateTime => s.service.Some?
        case Details => s.service.Some? && s.slot.Some?
        case PaymentStep => s.page == Salon && s.bookingData.Some?
        case Confirmation => false;
      if allowed then s.(step := target) else s
  }

  /** The services left after removing the one with the given id, in order. */
  function WithoutService(services: seq<Catalog.Service>, id: string): (r: seq<Catalog.Service>)
    ensures forall x :: x in r <==> x in services && x.id != id
    ensures |r| <= |services|
  {
    if |services| == 0 then []
    else (if services[0].id == id then [] else [services[0]]) + WithoutService(services[1..], id)
  }

  /** Removing from a joined list is removing from each part and joining, so the services that
      remain keep their order and their repetitions. */
  lemma {:induction false} WithoutServiceAppend(a: seq<Catalog.Service>, b: seq<Catalog.Service>, id: string)
    ensures WithoutService(a + b, id) == WithoutService(a, id) + WithoutService(b, id)
    decreases |a|
  {
    if |a| == 0 {
      assert a + b == b;
    } else {
      assert (a + b)[1..] == a[1..] + b;
      WithoutServiceAppend(a[1..], b, id);
    }
  }

  /** A one-service list keeps its service exactly when its id is another. */
  lemma WithoutServiceSingle(x: Catalog.Service, id: string)
    ensures WithoutService([x], id) == if x.id == id then [] else [x]
  {
    assert [x][1..] == [];
  }

  /** `handleDeleteService(id)`: refused while any booking is for that service; otherwise, when
      the store delete succeeds, exactly the services with that id leave the list. */
  function DeleteService(s: FlowState, id: string, deleted: bool): (r: FlowState)
    ensures (exists i :: 0 <= i < |s.bookings| && s.bookings[i].booking.serviceId == id) ==> r == s
    ensures !deleted ==> r == s
    ensures r.bookings == s.bookings && r.step == s.step && r.service == s.service
    ensures forall x :: x in r.services <==> x in s.services && (x.id != id || r == s)
    ensures r == s || r.services == WithoutService(s.services, id)
  {
    if exists i :: 0 <= i < |s.bookings| && s.bookings[i].booking.serviceId == id then s
    else if !deleted then s
    else s.(services := WithoutService(s.services, id))
  }

  // ---- events ----

  datatype Event =
    | PickService(service: Catalog.Service)
    | PickDate(date: int, today: int)
    | SlotsLoaded(dayBookings: seq<Saved>)
    | PickSlot(index: int)
    | ContinueToDetails
    | SubmitDetails(form: FormValues, save: SaveResult)
    | PayComplete(save: SaveResult)
    | Cancel
    | NewBookingClicked
    | Tab(target: Step)
    | RemoveService(id: string, deleted: bool)

  /** One event on the page. The payment events exist only on the salon page, and the service
      deletion only in its admin view. */
  function Apply(s: FlowState, e: Event): (r: FlowState)
    ensures r.page == s.page && r.hours == s.hours
  {
    match e
    case PickService(service) => SelectService(s, service)
    case PickDate(date, today) => SelectDate(s, date, today)
    case SlotsLoaded(dayBookings) => LoadSlots(s, dayBookings)
    case PickSlot(index) => SelectSlot(s, index)
    case ContinueToDetails => Continue(s)
    case SubmitDetails(form, save) => Submit(s, form, save)
    case PayComplete(save) => if s.page == Salon then PaymentComplete(s, save) else s
    case Cancel => if s.page == Salon then CancelPayment(s) else s
    case NewBookingClicked => StartOver(s)
    case Tab(target) => ClickTab(s, target)
    case RemoveService(id, deleted) => if s.page == Salon then DeleteService(s, id, deleted) else s
  }

  function Run(s: FlowState, events: seq<Event>): (r: FlowState)
    ensures r.page == s.page && r.hours == s.hours
    decreases |events|
  {
    if |events| == 0 then s else Run(Apply(s, events[0]), events[1..])
  }

  // ---- invariants ----

  /** What holds in every reachable state: the date step has a service; a chosen slot is an
      available one of the slots shown; the payment step has a kept booking and belongs to the
      salon page; the confirmation step has a confirmed booking; the shared page never keeps a
      booking aside. */
  ghost predicate Inv(s: FlowState) {
    && (s.step == DateTime ==> s.service.Some?)
    && (s.slot.Some? ==> s.slot.value in s.slots && s.slot.value.available)
    && (s.step == PaymentStep ==> s.bookingData.Some? && s.page == Salon)
    && (s.step == Confirmation ==> s.confirmed.Some?)
    && (s.page == SharedLink ==> s.bookingData.None?)
  }

  lemma StartInv(page: Page, services: seq<Catalog.Service>, hours: seq<BusinessHours>, bookings: seq<Saved>)
    ensures Inv(Start(page, services, hours, bookings))
  {
  }

  /** Every event keeps the invariant. */
  lemma {:induction false} ApplyInv(s: FlowState, e: Event)
    requires Inv(s)
    ensures Inv(Apply(s, e))
  {
    match e
    case PickService(service) =>
    case PickDate(date, today) =>
    case SlotsLoaded(dayBookings) =>
    case PickSlot(index) =>
    case ContinueToDetails =>
    case SubmitDetails(form, save) =>
    case PayComplete(save) =>
    case Cancel =>
    case NewBookingClicked =>
    case Tab(target) =>
    case RemoveService(id, deleted) =>
  }

  /** Every run of events from a start state keeps the invariant. */
  lemma {:induction false} RunInv(s: FlowState, events: seq<Event>)
    requires Inv(s)
    ensures Inv(Run(s, events))
    decreases |events|
  {
    if |events| > 0 {
      ApplyInv(s, events[0]);
      RunInv(Apply(s, events[0]), events[1..]);
    }
  }

  /** The shared page never reaches the payment step. */
  lemma SharedNeverPays(s: FlowState, events: seq<Event>)
    requires Inv(s) && s.page == SharedLink
    ensures Run(s, events).step != PaymentStep
  {
    RunInv(s, events);
  }

  // ---- facts about the flow as written ----

  /** A booking that starts exactly at an existing booking's start is never offered: its slot is
      unavailable, for a service of positive duration. */
  lemma {:induction false} BookedStartUnavailable(s: FlowState, dayBookings: seq<Saved>, k: int, t: Availability.TimeSlot)
    requires s.date.Some? && s.service.Some? && s.service.value.duration > 0
    requires 0 <= k < |dayBookings|
    requires t in LoadSlots(s, dayBookings).slots && t.startTime == dayBookings[k].booking.date
    ensures !t.available
  {
    var d := s.service.value.duration;
    var booked := BookedIntervals(dayBookings, d);
    Availability.SlotsInMembers(Availability.DayWindow(s.date.value, s.hours), d, booked, t);
    assert Availability.OverlapsAsWritten(t.startTime, t.startTime + d, booked[k]);
  }

  /** The salon page after a paid booking and "new booking" still keeps the old booking aside:
      its payment tab opens with no service chosen, and cancelling lands on the details step with
      neither service nor slot. */
  lemma StaleBookingReopensPayment(s: FlowState)
    requires s.page == Salon && s.step == Confirmation && s.bookingData.Some?
    ensures var t := ClickTab(StartOver(s), PaymentStep);
      && t.step == PaymentStep && t.service.None?
      && CancelPayment(t).step == Details && CancelPayment(t).service.None? && CancelPayment(t).slot.None?
  {
  }

  /** Completing payment again from there saves the old booking a second time. */
  lemma StaleBookingSavedTwice(s: FlowState, id: string)
    requires s.page == Salon && s.step == Confirmation && s.bookingData.Some?
    ensures var t := PaymentComplete(ClickTab(StartOver(s), PaymentStep), SavedAs(id));
      t.bookings == s.bookings + [Saved(id, s.bookingData.value)] && t.step == Confirmation
  {
  }

  /** Deleting a service is refused exactly while some booking is for it. */
  lemma {:induction false} DeleteRefusedIff(s: FlowState, id: string)
    ensures DeleteService(s, id, true).services != s.services ==>
      forall i :: 0 <= i < |s.bookings| ==> s.bookings[i].booking.serviceId != id
    ensures (forall i :: 0 <= i < |s.bookings| ==> s.bookings[i].booking.serviceId != id) ==>
      forall x :: x in DeleteService(s, id, true).services <==> x in s.services && x.id != id
    ensures (forall i :: 0 <= i < |s.bookings| ==> s.bookings[i].booking.serviceId != id) ==>
      DeleteService(s, id, true).services == WithoutService(s.services, id)
  {
  }
}

=== FILE: hours.dfy ===
/**
  Opening hours (`businessHours.js`). An entry says, for one weekday, whether the salon is open
  and between which `HH:mm` times. The store is the `businessHours` collection: one document per
  weekday, keyed by that weekday, holding the entry's fields and the server time of its last
  write.
*/
module Hours {
  import opened Wrappers
  import Seqs

  /** One weekday's opening hours, as the booking pages and the admin panel pass them around. */
  datatype BusinessHours = BusinessHours(dayOfWeek: int, isOpen: bool, openTime: string, closeTime: string)

  /** A stored document; its key in the store is its weekday. */
  datatype StoredHours = StoredHours(isOpen: bool, openTime: string, closeTime: string, updatedAt: int)

  type Store = map<int, StoredHours>

  /** `businessHours.find(hours => hours.dayOfWeek === day)`: the first entry for the weekday. */
  function FindForDay(hours: seq<BusinessHours>, day: int): (r: Option<BusinessHours>)
    ensures r.None? <==> forall i :: 0 <= i < |hours| ==> hours[i].dayOfWeek != day
    ensures r.Some? ==> r.value in hours && r.value.dayOfWeek == day
  {
    if |hours| == 0 then None
    else if hours[0].dayOfWeek == day then Some(hours[0])
    else FindForDay(hours[1..], day)
  }

  /** The entry `find` returns is the first one for that weekday, not any later one. */
  lemma {:induction false} FindForDayFirst(hours: seq<BusinessHours>, day: int, i: int)
    requires 0 <= i < |hours| && hours[i].dayOfWeek == day
    requires forall j :: 0 <= j < i ==> hours[j].dayOfWeek != day
    ensures FindForDay(hours, day) == Some(hours[i])
  {
    if i > 0 {
      FindForDayFirst(hours[1..], day, i - 1);
    }
  }

  // ---- updateBusinessHours ----

  /** The document `setDoc` writes for an entry: its fields plus the server timestamp. */
  function Stamp(h: BusinessHours, now: int): (d: StoredHours)
    ensures d.isOpen == h.isOpen && d.openTime == h.openTime && d.closeTime == h.closeTime
    ensures d.updatedAt == now
  {
    StoredHours(h.isOpen, h.openTime, h.closeTime, now)
  }

  /** `updateBusinessHours(businessHours)`: each entry in turn overwrites the document keyed by its
      weekday. The server clock is the parameter `now`. */
  function UpdateBusinessHours(store: Store, input: seq<BusinessHours>, now: int): (r: Store)
    ensures r.Keys == store.Keys + set i | 0 <= i < |input| :: input[i].dayOfWeek
    ensures forall d :: d in store && (forall i :: 0 <= i < |input| ==> input[i].dayOfWeek != d) ==>
              r[d] == store[d]
    ensures forall i :: 0 <= i < |input| && (forall j :: i < j < |input| ==> input[j].dayOfWeek != input[i].dayOfWeek) ==>
              r[input[i].dayOfWeek] == Stamp(input[i], now)
  {
    if |input| == 0 then store
    else
      var before := UpdateBusinessHours(store, input[..|input| - 1], now);
      var last := input[|input| - 1];
      assert forall i :: 0 <= i < |input| - 1 ==> input[..|input| - 1][i] == input[i];
      before[last.dayOfWeek := Stamp(last, now)]
  }

  /** Writing the same hours twice leaves the store as one write does. */
  lemma UpdateTwice(store: Store, input: seq<BusinessHours>, now: int)
    ensures UpdateBusinessHours(UpdateBusinessHours(store, input, now), input, now)
         == UpdateBusinessHours(store, input, now)
  {
    var once := UpdateBusinessHours(store, input, now);
    var twice := UpdateBusinessHours(once, input, now);
    forall d | d in twice
      ensures twice[d] == once[d]
    {
      if i :| 0 <= i < |input| && input[i].dayOfWeek == d {
        var k := LastIndexForDay(input, d, i);
      }
    }
  }

  /** Some entry for a weekday that occurs in the input is the last one for that weekday. */
  lemma {:induction false} LastIndexForDay(input: seq<BusinessHours>, d: int, i: int) returns (k: int)
    requires 0 <= i < |input| && input[i].dayOfWeek == d
    ensures i <= k < |input| && input[k].dayOfWeek == d
    ensures forall j :: k < j < |input| ==> input[j].dayOfWeek != d
    decreases |input| - i
  {
    if j :| i < j < |input| && input[j].dayOfWeek == d {
      k := LastIndexForDay(input, d, j);
    } else {
      k := i;
    }
  }

  // ---- getBusinessHours ----

  /** The fields `getBusinessHours` keeps of a stored document: the timestamp is dropped. */
  function Project(day: int, d: StoredHours): (h: BusinessHours)
    ensures h.dayOfWeek == day && h.isOpen == d.isOpen
    ensures h.openTime == d.openTime && h.closeTime == d.closeTime
  {
    BusinessHours(day, d.isOpen, d.openTime, d.closeTime)
  }

  /** The sort key of `getBusinessHours`. */
  function DayOf(h: BusinessHours): int {
    h.dayOfWeek
  }

  /** `getBusinessHours()`: the stored documents, listed by the query in some order `listed`,
      projected to their four fields and sorted by weekday. The result is exactly the store's
      entries, one per weekday, in ascending weekday order. */
  function GetBusinessHours(store: Store, listed: seq<int>): (r: seq<BusinessHours>)
    requires forall i, j :: 0 <= i < j < |listed| ==> listed[i] != listed[j]
    requires forall d :: d in store <==> d in listed
    ensures Seqs.StrictlySortedBy(r, DayOf) && |r| == |listed|
    ensures forall i :: 0 <= i < |r| ==> r[i].dayOfWeek in store && r[i] == Project(r[i].dayOfWeek, store[r[i].dayOfWeek])
    ensures forall d :: d in store ==> Project(d, store[d]) in r
  {
    var projected := Projection(store, listed);
    Seqs.SortByStrict(projected, DayOf);
    // businessHours.sort((a, b) => a.dayOfWeek - b.dayOfWeek)
    Seqs.SortBy(projected, DayOf)
  }

  /** The query's documents in listing order, each projected to its four fields. */
  function Projection(store: Store, listed: seq<int>): (p: seq<BusinessHours>)
    requires forall i, j :: 0 <= i < j < |listed| ==> listed[i] != listed[j]
    requires forall d :: d in store <==> d in listed
    ensures |p| == |listed|
    ensures forall i, j :: 0 <= i < j < |p| ==> p[i].dayOfWeek != p[j].dayOfWeek
    ensures forall h :: h in p ==> h.dayOfWeek in store && h == Project(h.dayOfWeek, store[h.dayOfWeek])
    ensures forall d :: d in store ==> Project(d, store[d]) in p
  {
    var p := seq(|listed|, i requires 0 <= i < |listed| => Project(listed[i], store[listed[i]]));
    assert forall d :: d in store ==> Project(d, store[d]) in p by {
      forall d | d in store ensures Project(d, store[d]) in p {
        var i :| 0 <= i < |listed| && listed[i] == d;
        assert p[i] == Project(d, store[d]);
      }
    }
    p
  }

  // ---- initializeDefaultBusinessHours ----

  /** The default week: Sunday and Saturday closed, Monday to Friday open 09:00-17:00. */
  const DefaultHours: seq<BusinessHours> := [
    BusinessHours(0, false, "09:00", "17:00"),
    BusinessHours(1, true, "09:00", "17:00"),
    BusinessHours(2, true, "09:00", "17:00"),
    BusinessHours(3, true, "09:00", "17:00"),
    BusinessHours(4, true, "09:00", "17:00"),
    BusinessHours(5, true, "09:00", "17:00"),
    BusinessHours(6, false, "09:00", "17:00")
  ]

  /** Entry `d` of the default week is weekday `d`, open exactly on Monday to Friday. */
  lemma DefaultHoursShape()
    ensures |DefaultHours| == 7
    ensures forall d :: 0 <= d < 7 ==> DefaultHours[d] == BusinessHours(d, 1 <= d <= 5, "09:00", "17:00")
  {
  }

  /** Writing a week given day by day, entry `d` for weekday `d`, stamps each of the seven days. */
  lemma {:induction false} WriteWeek(store: Store, week: seq<BusinessHours>, now: int)
    requires |week| == 7 && forall d :: 0 <= d < 7 ==> week[d].dayOfWeek == d
    ensures UpdateBusinessHours(store, week, now).Keys == store.Keys + {0, 1, 2, 3, 4, 5, 6}
  {
    var days := set i | 0 <= i < |week| :: week[i].dayOfWeek;
    forall d | d in days ensures 0 <= d < 7 {
      var i :| 0 <= i < |week| && week[i].dayOfWeek == d;
    }
    forall d | 0 <= d < 7 ensures d in days {
      assert week[d].dayOfWeek == d;
    }
    assert days == {0, 1, 2, 3, 4, 5, 6};
  }

  /** In such a week, weekday `d` is written last by entry `d`. */
  lemma {:induction false} WriteWeekDay(store: Store, week: seq<BusinessHours>, now: int, d: int)
    requires |week| == 7 && forall k :: 0 <= k < 7 ==> week[k].dayOfWeek == k
    requires 0 <= d < 7
    ensures d in UpdateBusinessHours(store, week, now)
    ensures UpdateBusinessHours(store, week, now)[d] == Stamp(week[d], now)
  {
    assert forall j :: d < j < |week| ==> week[j].dayOfWeek != week[d].dayOfWeek;
  }

  /** `initializeDefaultBusinessHours()`: writes the default week only into an empty store. */
  function InitializeDefaultBusinessHours(store: Store, now: int): (r: Store)
    ensures store != map[] ==> r == store
    ensures store == map[] ==> r.Keys == {0, 1, 2, 3, 4, 5, 6}
    ensures store == map[] ==> forall d :: d in r ==>
              r[d] == StoredHours(1 <= d <= 5, "09:00", "17:00", now)
  {
    if store == map[] then
      DefaultHoursShape();
      WriteWeek(store, DefaultHours, now);
      var r := UpdateBusinessHours(store, DefaultHours, now);
      forall d | d in r ensures r[d] == StoredHours(1 <= d <= 5, "09:00", "17:00", now) {
        WriteWeekDay(store, DefaultHours, now, d);
      }
      r
    else store
  }

  /** A second initialisation changes nothing, whatever the clock says. */
  lemma InitializeTwice(store: Store, now: int, later: int)
    ensures InitializeDefaultBusinessHours(InitializeDefaultBusinessHours(store, now), later)
         == InitializeDefaultBusinessHours(store, now)
  {
    var once := InitializeDefaultBusinessHours(store, now);
    assert 0 in once.Keys || store != map[];
  }
}

=== FILE: links.dfy ===
/**
  Shareable booking links (`booking-links.js`) and the gate the shared booking page puts in front
  of its flow (`BookingLink.jsx`). A link is a stored record with a short token; the page admits
  a visitor whose token resolves to a record.
*/
module Links {
  import opened Wrappers

  /** The `createdAt` field as stored: a native timestamp, an ISO text, or anything else. */
  datatype StoredTime = Native(instant: int) | Iso(text: string) | Unknown

  /** A stored link document: its document id and its fields. `isActive` is `None` when the
      field is absent or null. */
  datatype LinkDoc = LinkDoc(docId: string, linkId: string, createdAt: StoredTime, isActive: Option<bool>)

  /** The collection as a query sees it: unreachable (the query throws), or its documents in
      query order. */
  datatype Collection = Unreachable | Docs(docs: seq<LinkDoc>)

  /** The link object the functions return. `createdAt` is `None` for an invalid `Date`. */
  datatype BookingLink = BookingLink(id: string, linkId: string, createdAt: Option<int>, isActive: bool)

  const Demo: string := "demo"

  /** JavaScript falsiness of the route parameter: missing or empty. */
  predicate Falsy(linkId: Option<string>) {
    linkId.None? || linkId.value == ""
  }

  /** The fixed link both lookups return for the demo token, created "now". */
  function DemoLink(now: int): (l: BookingLink)
    ensures l.id == Demo && l.linkId == Demo && l.isActive && l.createdAt == Some(now)
  {
    BookingLink(Demo, Demo, Some(now), true)
  }

  /** The `createdAt` normalisation: a timestamp is converted, a text is parsed by `parseIso`
      (`new Date(text)`), anything else becomes the current instant. */
  function NormalTime(t: StoredTime, now: int, parseIso: string -> Option<int>): (r: Option<int>)
    ensures t.Native? ==> r == Some(t.instant)
    ensures t.Iso? ==> r == parseIso(t.text)
    ensures t.Unknown? ==> r == Some(now)
  {
    match t
    case Native(i) => Some(i)
    case Iso(s) => parseIso(s)
    case Unknown => Some(now)
  }

  // ---- validateBookingLink ----

  /** The first document of the query `where("linkId", "==", token)`: the first in collection
      order whose token is equal. */
  function FirstWithToken(docs: seq<LinkDoc>, token: string): (r: Option<LinkDoc>)
    ensures r.None? <==> forall i :: 0 <= i < |docs| ==> docs[i].linkId != token
    ensures r.Some? ==> exists i :: 0 <= i < |docs| && docs[i] == r.value && r.value.linkId == token &&
                          forall j :: 0 <= j < i ==> docs[j].linkId != token
  {
    if |docs| == 0 then None
    else if docs[0].linkId == token then Some(docs[0])
    else
      var r := FirstWithToken(docs[1..], token);
      assert r.Some? ==> exists i :: 0 <= i < |docs| - 1 && docs[1..][i] == r.value && r.value.linkId == token &&
                          forall j :: 0 <= j < i ==> docs[1..][j].linkId != token;
      r
  }

  /** The first equal-token document is the one at any index `i` with no equal token before it. */
  lemma {:induction false} FirstWithTokenAt(docs: seq<LinkDoc>, token: string, i: int)
    requires 0 <= i < |docs| && docs[i].linkId == token
    requires forall j :: 0 <= j < i ==> docs[j].linkId != token
    ensures FirstWithToken(docs, token) == Some(docs[i])
  {
    if i > 0 {
      FirstWithTokenAt(docs[1..], token, i - 1);
    }
  }

  /** `validateBookingLink(linkId)`: no token gives null, the demo token gives the demo link
      without a lookup, an unreachable collection or no equal token gives null, and otherwise the
      first equal-token document is returned with its time normalised and `isActive` defaulting to
      true only when absent (`??`). */
  function ValidateBookingLink(linkId: Option<string>, store: Collection, now: int,
                               parseIso: string -> Option<int>): (r: Option<BookingLink>)
    ensures Falsy(linkId) ==> r.None?
    ensures linkId == Some(Demo) ==> r == Some(DemoLink(now))
    ensures !Falsy(linkId) && linkId != Some(Demo) && store.Unreachable? ==> r.None?
    ensures r.Some? && linkId != Some(Demo) ==> store.Docs? && r.value.linkId == linkId.value
  {
    if Falsy(linkId) then None
    else if linkId.value == Demo then Some(DemoLink(now))
    else match store
      case Unreachable => None
      case Docs(docs) =>
        match FirstWithToken(docs, linkId.value)
        case None => None
        case Some(d) => Some(BookingLink(d.docId, d.linkId, NormalTime(d.createdAt, now, parseIso), d.isActive.GetOr(true)))
  }

  /** Outside the demo token, a link is found exactly when some document carries the token, and
      it is the first such document, with its stored activity kept (true when absent). */
  lemma {:induction false} ValidateFindsFirst(token: string, docs: seq<LinkDoc>, now: int,
                                              parseIso: string -> Option<int>, i: int)
    requires token != "" && token != Demo
    requires 0 <= i < |docs| && docs[i].linkId == token
    requires forall j :: 0 <= j < i ==> docs[j].linkId != token
    ensures ValidateBookingLink(Some(token), Docs(docs), now, parseIso) ==
      Some(BookingLink(docs[i].docId, token, NormalTime(docs[i].createdAt, now, parseIso),
                       if docs[i].isActive.Some? then docs[i].isActive.value else true))
  {
    FirstWithTokenAt(docs, token, i);
  }

  /** No document carries the token: null. */
  lemma NoTokenNoLink(token: string, docs: seq<LinkDoc>, now: int, parseIso: string -> Option<int>)
    requires token != Demo
    requires forall i :: 0 <= i < |docs| ==> docs[i].linkId != token
    ensures ValidateBookingLink(Some(token), Docs(docs), now, parseIso).None?
  {
  }

  // ---- createBookingLink ----

  /** The document `createBookingLink` stores for a fresh token: the creation instant as ISO text
      (`toIso` is `toISOString`) and `isActive` true. */
  function CreatedDoc(docId: string, token: string, now: int, toIso: int -> string): (d: LinkDoc)
    ensures d.docId == docId && d.linkId == token && d.isActive == Some(true)
    ensures d.createdAt == Iso(toIso(now))
  {
    LinkDoc(docId, token, Iso(toIso(now)), Some(true))
  }

  /** The link object `createBookingLink` returns once the document is added. Its `createdAt` is
      a second clock read, `returnedAt`, taken after the store's round trip, not the stored one. */
  function CreatedLink(docId: string, token: string, returnedAt: int): (l: BookingLink)
    ensures l.id == docId && l.linkId == token && l.createdAt == Some(returnedAt) && l.isActive
  {
    BookingLink(docId, token, Some(returnedAt), true)
  }

  /** A link just added under a token no other document carries, at instant `now`, validates to
      the record `createBookingLink` returned at `returnedAt`, except that the validated record
      carries the stored instant `now` (when parsing the ISO text gives it back). The two records
      are equal exactly when both clock reads fall on the same instant. */
  lemma {:induction false} CreatedLinkValidates(docs: seq<LinkDoc>, docId: string, token: string, now: int, returnedAt: int,
                                                later: int, toIso: int -> string, parseIso: string -> Option<int>)
    requires token != "" && token != Demo
    requires forall i :: 0 <= i < |docs| ==> docs[i].linkId != token
    requires parseIso(toIso(now)) == Some(now)
    ensures ValidateBookingLink(Some(token), Docs(docs + [CreatedDoc(docId, token, now, toIso)]), later, parseIso)
         == Some(CreatedLink(docId, token, returnedAt).(createdAt := Some(now)))
    ensures (ValidateBookingLink(Some(token), Docs(docs + [CreatedDoc(docId, token, now, toIso)]), later, parseIso)
             == Some(CreatedLink(docId, token, returnedAt))) <==> returnedAt == now
  {
    var all := docs + [CreatedDoc(docId, token, now, toIso)];
    assert forall j :: 0 <= j < |docs| ==> all[j] == docs[j];
    ValidateFindsFirst(token, all, later, parseIso, |docs|);
  }

  // ---- getBookingLinkById ----

  /** The document `getDoc(doc(collection, id))` reads: the one with that document id. */
  function DocById(docs: seq<LinkDoc>, id: string): (r: Option<LinkDoc>)
    ensures r.None? <==> forall i :: 0 <= i < |docs| ==> docs[i].docId != id
    ensures r.Some? ==> r.value in docs && r.value.docId == id
  {
    if |docs| == 0 then None
    else if docs[0].docId == id then Some(docs[0])
    else DocById(docs[1..], id)
  }

  /** `getBookingLinkById(id)` as written: `data.isActive || true` reports every link active. */
  function GetBookingLinkByIdAsWritten(id: Option<string>, store: Collection, now: int,
                                       parseIso: string -> Option<int>): (r: Option<BookingLink>)
    ensures Falsy(id) ==> r.None?
    ensures id == Some(Demo) ==> r == Some(DemoLink(now))
    ensures !Falsy(id) && id != Some(Demo) && store.Unreachable? ==> r.None?
    ensures !Falsy(id) && id != Some(Demo) && store.Docs? ==>
      match DocById(store.docs, id.value)
      case None => r.None?
      case Some(d) => r.Some? && r.value.id == id.value && r.value.linkId == d.linkId
    ensures r.Some? ==> r.value.isActive
  {
    if Falsy(id) then None
    else if id.value == Demo then Some(DemoLink(now))
    else match store
      case Unreachable => None
      case Docs(docs) =>
        match DocById(docs, id.value)
        case None => None
        case Some(d) =>
          // `false || true` and `undefined || true` are both `true`
          var active := (d.isActive.Some? && d.isActive.value) || true;
          Some(BookingLink(d.docId, d.linkId, NormalTime(d.createdAt, now, parseIso), active))
  }

  /** As written, the read by id is the corrected read with `isActive` forced to true. */
  lemma AsWrittenForcesActive(id: Option<string>, store: Collection, now: int, parseIso: string -> Option<int>)
    ensures GetBookingLinkByIdAsWritten(id, store, now, parseIso) ==
      match GetBookingLinkById(id, store, now, parseIso)
      case None => None
      case Some(l) => Some(l.(isActive := true))
  {
  }

  /** A deactivated link read by id comes back active. */
  lemma DeactivatedReadsActive(doc: LinkDoc, now: int, parseIso: string -> Option<int>)
    requires doc.docId != "" && doc.docId != Demo && doc.isActive == Some(false)
    ensures var r := GetBookingLinkByIdAsWritten(Some(doc.docId), Docs([doc]), now, parseIso);
      r.Some? && r.value.isActive
  {
  }

  /** `getBookingLinkById(id)` with the defaulting `validateBookingLink` uses (`??`): the stored
      activity is kept, and only an absent one reads as true. */
  function GetBookingLinkById(id: Option<string>, store: Collection, now: int,
                              parseIso: string -> Option<int>): (r: Option<BookingLink>)
    ensures Falsy(id) ==> r.None?
    ensures id == Some(Demo) ==> r == Some(DemoLink(now))
    ensures !Falsy(id) && id != Some(Demo) && store.Unreachable? ==> r.None?
    ensures !Falsy(id) && id != Some(Demo) && store.Docs? ==>
      match DocById(store.docs, id.value)
      case None => r.None?
      case Some(d) => r.Some? && r.value.id == id.value && r.value.linkId == d.linkId &&
                      r.value.isActive == (d.isActive != Some(false))
  {
    if Falsy(id) then None
    else if id.value == Demo then Some(DemoLink(now))
    else match store
      case Unreachable => None
      case Docs(docs) =>
        match DocById(docs, id.value)
        case None => None
        case Some(d) => Some(BookingLink(d.docId, d.linkId, NormalTime(d.createdAt, now, parseIso), d.isActive.GetOr(true)))
  }

  /** The document read by id is the one at any index `i` with no equal id before it. */
  lemma {:induction false} DocByIdAt(docs: seq<LinkDoc>, id: string, i: int)
    requires 0 <= i < |docs| && docs[i].docId == id
    requires forall j :: 0 <= j < i ==> docs[j].docId != id
    ensures DocById(docs, id) == Some(docs[i])
  {
    if i > 0 {
      DocByIdAt(docs[1..], id, i - 1);
    }
  }

  /** In any collection, the corrected read by id and the validation agree on a document whose
      token is its id, when no earlier document carries that id or that token. */
  lemma {:induction false} LookupsAgree(docs: seq<LinkDoc>, i: int, now: int, parseIso: string -> Option<int>)
    requires 0 <= i < |docs|
    requires docs[i].docId == docs[i].linkId && docs[i].linkId != "" && docs[i].linkId != Demo
    requires forall j :: 0 <= j < i ==> docs[j].docId != docs[i].docId && docs[j].linkId != docs[i].linkId
    ensures GetBookingLinkById(Some(docs[i].docId), Docs(docs), now, parseIso)
         == ValidateBookingLink(Some(docs[i].linkId), Docs(docs), now, parseIso)
  {
    FirstWithTokenAt(docs, docs[i].linkId, i);
    DocByIdAt(docs, docs[i].docId, i);
  }

  // ---- the shared page's gate ----

  /** The outcome of the `validateBookingLink` call the page awaits: it threw, or it returned. */
  datatype Validation = Threw | Returned(link: Option<BookingLink>)

  /** `validateAndLoadData`'s decision on `linkValid`: no token is invalid, the demo token is
      valid without a call, and otherwise the link is valid exactly when the call returned a
      non-null link — its `isActive` is never looked at. */
  function LinkValid(linkId: Option<string>, validate: Validation): (valid: bool)
    ensures Falsy(linkId) ==> !valid
    ensures linkId == Some(Demo) ==> valid
    ensures !Falsy(linkId) && linkId != Some(Demo) ==> (valid <==> validate.Returned? && validate.link.Some?)
  {
    if Falsy(linkId) then false
    else if linkId.value == Demo then true
    else match validate
      case Threw => false
      case Returned(link) => link.Some?
  }

  /** The gate in front of the real lookup: valid exactly when some document carries the token
      (or the token is the demo one). */
  lemma {:induction false} GateIff(token: string, store: Collection, now: int, parseIso: string -> Option<int>)
    requires token != ""
    ensures LinkValid(Some(token), Returned(ValidateBookingLink(Some(token), store, now, parseIso))) <==>
      token == Demo || (store.Docs? && exists i :: 0 <= i < |store.docs| && store.docs[i].linkId == token)
  {
    if token != Demo && store.Docs? {
      var r := FirstWithToken(store.docs, token);
      if r.Some? {
        var i :| 0 <= i < |store.docs| && store.docs[i] == r.value && r.value.linkId == token &&
                 forall j :: 0 <= j < i ==> store.docs[j].linkId != token;
      }
    }
  }

  /** A deactivated link still opens the shared booking page. */
  lemma {:induction false} InactiveLinkAdmitted(token: string, doc: LinkDoc, now: int, parseIso: string -> Option<int>)
    requires token != "" && token != Demo
    requires doc.linkId == token && doc.isActive == Some(false)
    ensures var link := ValidateBookingLink(Some(token), Docs([doc]), now, parseIso);
      link.Some? && !link.value.isActive && LinkValid(Some(token), Returned(link))
  {
    ValidateFindsFirst(token, [doc], now, parseIso, 0);
  }
}

=== FILE: payment.dfy ===
/**
  The payment form's input handling (`PaymentForm.jsx`): the card-number formatter, the
  sanitisers on the other inputs, and the check that enables the pay button.
*/
module Payment {
  import Seqs
  import Text

  predicate DigitsAndSpaces(s: string) {
    forall i :: 0 <= i < |s| ==> Text.IsDigit(s[i]) || s[i] == ' '
  }

  /** `parts.join(" ")` for the four-digit `parts` of `d`: blocks of four digits (the last may be
      shorter) separated by single spaces. */
  function Grouped(d: string): (r: string)
    ensures |d| == 0 ==> r == []
    ensures |d| > 0 ==> |r| == |d| + (|d| - 1) / 4
    decreases |d|
  {
    if |d| <= 4 then d else d[..4] + " " + Grouped(d[4..])
  }

  /** Position `k` of the grouping is a space exactly when `k % 5 == 4`, and otherwise digit
      `k - k / 5` of `d`. */
  lemma {:induction false} GroupedAt(d: string, k: int)
    requires 0 <= k < |Grouped(d)|
    ensures k % 5 == 4 ==> Grouped(d)[k] == ' '
    ensures k % 5 != 4 ==> k - k / 5 < |d| && Grouped(d)[k] == d[k - k / 5]
    decreases |d|
  {
    if |d| > 4 && k >= 5 {
      var j := k - 5;
      assert Grouped(d)[k] == Grouped(d[4..])[j];
      assert k % 5 == j % 5 && k / 5 == j / 5 + 1;
      GroupedAt(d[4..], j);
    }
  }

  /** The digits `formatCardNumber` keeps: the first match of `\d{4,16}` in the digits of the
      input, which is their first sixteen, or nothing when there are fewer than four. */
  function KeptDigits(value: string): (m: string)
    ensures Text.AllDigits(m)
    ensures |Text.DigitsOf(value)| < 4 ==> m == []
    ensures |Text.DigitsOf(value)| >= 4 ==> |m| == if |Text.DigitsOf(value)| < 16 then |Text.DigitsOf(value)| else 16
    ensures |Text.DigitsOf(value)| >= 4 ==> 4 <= |m| <= 16 && m == Text.DigitsOf(value)[..|m|]
  {
    var v := Text.DigitsOf(value);
    if |v| < 4 then [] else if |v| <= 16 then v else v[..16]
  }

  /** `formatCardNumber(value)`: the kept digits in blocks of four, or the input unchanged when
      fewer than four digits are kept. */
  function FormatCardNumber(value: string): (r: string)
    ensures |Text.DigitsOf(value)| < 4 ==> r == value
    ensures |Text.DigitsOf(value)| >= 4 ==> r == Grouped(KeptDigits(value))
  {
    var m := KeptDigits(value);
    if |m| > 0 then Grouped(m) else value
  }

  /** With four digits or more the output holds only digits and spaces and fits the field's
      nineteen characters. */
  lemma FormattedShape(value: string)
    requires |Text.DigitsOf(value)| >= 4
    ensures DigitsAndSpaces(FormatCardNumber(value))
    ensures |FormatCardNumber(value)| <= 19
  {
    var m := KeptDigits(value);
    var r := Grouped(m);
    forall k | 0 <= k < |r| ensures Text.IsDigit(r[k]) || r[k] == ' ' {
      GroupedAt(m, k);
      if k % 5 != 4 { assert Text.IsDigit(m[k - k / 5]); }
    }
  }

  /** Removing the digits from text with no digit leaves nothing. */
  lemma {:induction false} DigitsOfNone(s: string)
    requires forall i :: 0 <= i < |s| ==> !Text.IsDigit(s[i])
    ensures Text.DigitsOf(s) == []
  {
    if |s| > 0 {
      DigitsOfNone(s[1..]);
    }
  }

  /** The digits of grouped digits are those digits. */
  lemma {:induction false} DigitsOfGrouped(d: string)
    requires Text.AllDigits(d)
    ensures Text.DigitsOf(Grouped(d)) == d
    decreases |d|
  {
    if |d| <= 4 {
      Seqs.FilterAll(d, Text.IsDigit);
    } else {
      var rest := d[4..];
      assert Grouped(d) == (d[..4] + " ") + Grouped(rest);
      Seqs.FilterAppend(d[..4] + " ", Grouped(rest), Text.IsDigit);
      Seqs.FilterAppend(d[..4], " ", Text.IsDigit);
      Seqs.FilterAll(d[..4], Text.IsDigit);
      DigitsOfNone(" ");
      DigitsOfGrouped(rest);
      assert d[..4] + rest == d;
    }
  }

  /** Digits are not whitespace, so removing whitespace from digits changes nothing. */
  lemma StripDigits(d: string)
    requires Text.AllDigits(d)
    ensures Text.StripSpaces(d) == d
  {
    assert forall i :: 0 <= i < |d| ==> Text.NotSpace(d[i]) by {
      forall i | 0 <= i < |d| ensures Text.NotSpace(d[i]) {
        assert '0' <= d[i] <= '9';
      }
    }
    Seqs.FilterAll(d, Text.NotSpace);
  }

  /** The whitespace-free form of grouped digits is those digits. */
  lemma {:induction false} StripGrouped(d: string)
    requires Text.AllDigits(d)
    ensures Text.StripSpaces(Grouped(d)) == d
    decreases |d|
  {
    if |d| <= 4 {
      StripDigits(d);
    } else {
      var head, rest := d[..4], d[4..];
      assert Grouped(d) == (head + " ") + Grouped(rest);
      Seqs.FilterAppend(head + " ", Grouped(rest), Text.NotSpace);
      Seqs.FilterAppend(head, " ", Text.NotSpace);
      StripDigits(head);
      assert Text.StripSpaces(" ") == [] by {
        assert !Text.NotSpace(' ');
        assert " "[1..] == [];
      }
      StripGrouped(rest);
      assert head + rest == d;
    }
  }

  /** `formatCardNumber` is idempotent: formatting what it produced changes nothing. */
  lemma {:induction false} FormatIdempotent(value: string)
    ensures FormatCardNumber(FormatCardNumber(value)) == FormatCardNumber(value)
  {
    if |Text.DigitsOf(value)| >= 4 {
      var m := KeptDigits(value);
      DigitsOfGrouped(m);
      var r := Grouped(m);
      assert Text.DigitsOf(r) == m;
      assert KeptDigits(r) == m;
    }
  }

  /** The payment methods the form offers. */
  datatype Method = Card | Swish

  /** The form's fields. */
  datatype Form = Form(cardNumber: string, cardName: string, expiryMonth: string, expiryYear: string,
                       cvv: string, phoneNumber: string)

  /** `isFormValid()`: a card payment needs sixteen non-space code units in the number, a
      trimmed name longer than three code units, a chosen month and year, and a three-unit
      CVV; a Swish payment needs ten non-space code units in the phone number. Lengths are
      JavaScript's, in UTF-16 code units. */
  function IsFormValid(paymentMethod: Method, f: Form): (valid: bool)
    ensures paymentMethod.Card? ==> (valid <==>
      Text.Utf16Length(Text.StripSpaces(f.cardNumber)) == 16 && Text.Utf16Length(Text.Trim(f.cardName)) > 3 &&
      f.expiryMonth != "" && f.expiryYear != "" && Text.Utf16Length(f.cvv) == 3)
    ensures paymentMethod.Swish? ==> (valid <==> Text.Utf16Length(Text.StripSpaces(f.phoneNumber)) == 10)
  {
    match paymentMethod
    case Card =>
      Text.Utf16Length(Text.StripSpaces(f.cardNumber)) == 16 && Text.Utf16Length(Text.Trim(f.cardName)) > 3
        && f.expiryMonth != "" && f.expiryYear != "" && Text.Utf16Length(f.cvv) == 3
    case Swish => Text.Utf16Length(Text.StripSpaces(f.phoneNumber)) == 10
  }

  /** Whatever is typed, a number field holding sixteen digits or more satisfies the card-number
      condition once formatted. */
  lemma FormattedNumberAccepted(typed: string)
    requires |Text.DigitsOf(typed)| >= 16
    ensures Text.Utf16Length(Text.StripSpaces(FormatCardNumber(typed))) == 16
  {
    StripGrouped(KeptDigits(typed));
    Text.Utf16OfDigits(KeptDigits(typed));
  }

  /** Fewer than sixteen digits typed never satisfies the card-number condition once formatted
      (when there are at least four, so the formatter rewrites the field). */
  lemma ShortNumberRejected(typed: string)
    requires 4 <= |Text.DigitsOf(typed)| < 16
    ensures Text.Utf16Length(Text.StripSpaces(FormatCardNumber(typed))) < 16
  {
    StripGrouped(KeptDigits(typed));
    Text.Utf16OfDigits(KeptDigits(typed));
  }

  // ---- sanitisers ----

  /** The CVV and phone inputs keep only digits (`replace(/\D/g, "")`). */
  function SanitiseDigits(typed: string): (r: string)
    ensures Text.AllDigits(r) && |r| <= |typed|
    ensures forall i :: 0 <= i < |typed| && Text.IsDigit(typed[i]) ==> typed[i] in r
  {
    Text.DigitsOf(typed)
  }

  /** Sanitising sanitised digits changes nothing. */
  lemma SanitiseIdempotent(typed: string)
    ensures SanitiseDigits(SanitiseDigits(typed)) == SanitiseDigits(typed)
  {
    Seqs.FilterAll(Text.DigitsOf(typed), Text.IsDigit);
  }

  /** Digits have no whitespace, so a sanitised phone number passes the Swish check exactly when
      it is ten digits long. */
  lemma {:induction false} SanitisedPhoneValid(typed: string, f: Form)
    requires f.phoneNumber == SanitiseDigits(typed)
    ensures IsFormValid(Swish, f) <==> |SanitiseDigits(typed)| == 10
  {
    var p := SanitiseDigits(typed);
    forall i | 0 <= i < |p| ensures !Text.IsSpace(p[i]) {
      assert Text.IsDigit(p[i]);
    }
    Seqs.FilterAll(p, Text.NotSpace);
    Text.Utf16OfDigits(p);
  }

  /** The card-holder input is upper-cased (`toUpperCase`): no lower-case ASCII or Latin-1
      letter but `ß` is left, and every other character stays where it was. */
  function SanitiseName(typed: string): (r: string)
    ensures |r| == |typed|
    ensures forall i :: 0 <= i < |r| ==> !Text.IsLowerLatin(r[i])
    ensures forall i :: 0 <= i < |r| && !Text.IsLowerLatin(typed[i]) ==> r[i] == typed[i]
  {
    Text.ToUpper(typed)
  }

  /** A Swedish name comes out in capitals, `å` included. */
  lemma SwedishNameUpperCased()
    ensures SanitiseName("åsa") == "ÅSA"
  {
  }

  /** `ÿ` and `µ` get capitals outside Latin-1; `ß` is kept. */
  lemma LatinOneEdgeCases()
    ensures SanitiseName("\U{FF}\U{B5}\U{DF}") == "\U{178}\U{39C}\U{DF}"
  {
  }

  /** Two emoji are four code units, so a card-holder name of two emoji passes the name check. */
  lemma EmojiNameLength()
    ensures Text.Utf16Length("\U{1F600}\U{1F600}") == 4
    ensures Text.Utf16Length(Text.Trim("\U{1F600}\U{1F600}")) > 3
  {
  }

  /** Upper-casing twice is upper-casing once. */
  lemma {:induction false} SanitiseNameIdempotent(typed: string)
    ensures SanitiseName(SanitiseName(typed)) == SanitiseName(typed)
  {
    var once := SanitiseName(typed);
    assert forall i :: 0 <= i < |once| ==> Text.UpperChar(once[i]) == once[i];
  }
}

=== FILE: seqs.dfy ===
/** Sequence helpers shared by the catalog, the admin panel and the payment form:
    the source's `Array.prototype.filter` and its first-occurrence de-duplication
    (`new Set(...)` read back with `Array.from`, or `filter` on `indexOf`). */
module Seqs {

  /** `s.filter(p)`: the elements of `s` that satisfy `p`, in their original order. */
  function Filter<T>(s: seq<T>, p: T -> bool): (r: seq<T>)
    ensures |r| <= |s|
    ensures forall i :: 0 <= i < |r| ==> r[i] in s && p(r[i])
    ensures forall i :: 0 <= i < |s| && p(s[i]) ==> s[i] in r
  {
    if |s| == 0 then [] else (if p(s[0]) then [s[0]] else []) + Filter(s[1..], p)
  }

  /** Filtering distributes over concatenation. */
  lemma {:induction false} FilterAppend<T>(a: seq<T>, b: seq<T>, p: T -> bool)
    ensures Filter(a + b, p) == Filter(a, p) + Filter(b, p)
  {
    if |a| == 0 {
      assert a + b == b;
    } else {
      assert (a + b)[1..] == a[1..] + b;
      FilterAppend(a[1..], b, p);
    }
  }

  /** Filtering with a predicate every element satisfies changes nothing. */
  lemma {:induction false} FilterAll<T>(s: seq<T>, p: T -> bool)
    requires forall i :: 0 <= i < |s| ==> p(s[i])
    ensures Filter(s, p) == s
  {
    if |s| > 0 {
      FilterAll(s[1..], p);
    }
  }

  predicate NoDuplicates<T(==)>(s: seq<T>) {
    forall i, j :: 0 <= i < j < |s| ==> s[i] != s[j]
  }

  /** The position of the first occurrence of `x` in `s` (`s.indexOf(x)`). */
  function FirstIndex<T(==)>(s: seq<T>, x: T): (k: nat)
    requires x in s
    ensures k < |s| && s[k] == x
    ensures forall j :: 0 <= j < k ==> s[j] != x
  {
    if s[0] == x then 0 else 1 + FirstIndex(s[1..], x)
  }

  /** The first occurrence of an element of a prefix is the same in the prefix and in the whole. */
  lemma FirstIndexPrefix<T>(s: seq<T>, n: nat, x: T)
    requires n <= |s| && x in s[..n]
    ensures FirstIndex(s[..n], x) == FirstIndex(s, x)
  {
    var k := FirstIndex(s[..n], x);
    assert s[k] == x;
    assert forall j :: 0 <= j < k ==> s[j] == s[..n][j];
  }

  /** `r` lists elements of `s` in the order of their first occurrence in `s`. */
  ghost predicate InFirstOccurrenceOrder<T>(s: seq<T>, r: seq<T>) {
    forall i, j :: 0 <= i < j < |r| && r[i] in s && r[j] in s ==> FirstIndex(s, r[i]) < FirstIndex(s, r[j])
  }

  /** One step of `Dedup` when the last element of `s` is new: append it. */
  lemma DedupStepNew<T>(s: seq<T>, d: seq<T>)
    requires |s| > 0 && s[|s| - 1] !in d
    requires forall i :: 0 <= i < |d| ==> d[i] in s[..|s| - 1]
    requires forall i :: 0 <= i < |s| - 1 ==> s[i] in d
    requires InFirstOccurrenceOrder(s[..|s| - 1], d)
    ensures InFirstOccurrenceOrder(s, d + [s[|s| - 1]])
  {
    var n := |s| - 1;
    var r := d + [s[n]];
    forall i | 0 <= i < |d|
      ensures d[i] in s && FirstIndex(s[..n], d[i]) == FirstIndex(s, d[i]) < n
    {
      FirstIndexPrefix(s, n, d[i]);
    }
    assert forall k :: 0 <= k < n ==> s[k] != s[n];
    assert FirstIndex(s, s[n]) == n;
    forall i, j | 0 <= i < j < |r| && r[i] in s && r[j] in s
      ensures FirstIndex(s, r[i]) < FirstIndex(s, r[j])
    {
      assert r[i] == d[i];
      if j < |d| {
        assert r[j] == d[j];
      }
    }
  }

  /** One step of `Dedup` when the last element of `s` is already present: keep `d`. */
  lemma DedupStepOld<T>(s: seq<T>, d: seq<T>)
    requires |s| > 0
    requires forall i :: 0 <= i < |d| ==> d[i] in s[..|s| - 1]
    requires InFirstOccurrenceOrder(s[..|s| - 1], d)
    ensures InFirstOccurrenceOrder(s, d)
  {
    var n := |s| - 1;
    forall i | 0 <= i < |d|
      ensures FirstIndex(s[..n], d[i]) == FirstIndex(s, d[i])
    {
      FirstIndexPrefix(s, n, d[i]);
    }
  }

  /** Keeps the first occurrence of every element, in order of first occurrence:
      what `Array.from(new Set(s))` and `s.filter((v, i) => s.indexOf(v) === i)` return. */
  function Dedup<T(==)>(s: seq<T>): (r: seq<T>)
    ensures NoDuplicates(r)
    ensures forall i :: 0 <= i < |r| ==> r[i] in s
    ensures forall i :: 0 <= i < |s| ==> s[i] in r
    ensures InFirstOccurrenceOrder(s, r)
  {
    if |s| == 0 then []
    else
      var n := |s| - 1;
      var d := Dedup(s[..n]);
      assert s == s[..n] + [s[n]];
      if s[n] in d then
        DedupStepOld(s, d);
        d
      else
        DedupStepNew(s, d);
        d + [s[n]]
  }

  /** De-duplication keeps the first element first. */
  lemma DedupHead<T>(s: seq<T>)
    requires |s| > 0
    ensures |Dedup(s)| > 0 && Dedup(s)[0] == s[0]
  {
    var r := Dedup(s);
    assert s[0] in r;
    assert FirstIndex(s, s[0]) == 0;
    forall i | 0 < i < |r| ensures r[i] != s[0] {
      assert r[0] in s && r[i] in s;
      assert FirstIndex(s, r[0]) < FirstIndex(s, r[i]);
    }
  }

  /** `Dedup([head] + Dedup(a + b))`: `head` first, then each element of `a` and `b` once. */
  lemma DedupJoin<T>(head: T, a: seq<T>, b: seq<T>)
    ensures var r := Dedup([head] + Dedup(a + b));
            && |r| > 0 && r[0] == head
            && (forall i :: 0 <= i < |a| ==> a[i] in r)
            && (forall i :: 0 <= i < |b| ==> b[i] in r)
            && (forall x :: x in r ==> x == head || x in a || x in b)
  {
    var inner := Dedup(a + b);
    var all := [head] + inner;
    var r := Dedup(all);
    DedupHead(all);
    forall i | 0 <= i < |a| ensures a[i] in r {
      assert (a + b)[i] == a[i];
      assert a[i] in inner;
      var k :| 0 <= k < |inner| && inner[k] == a[i];
      assert all[k + 1] == a[i];
    }
    forall i | 0 <= i < |b| ensures b[i] in r {
      assert (a + b)[|a| + i] == b[i];
      assert b[i] in inner;
      var k :| 0 <= k < |inner| && inner[k] == b[i];
      assert all[k + 1] == b[i];
    }
    forall x | x in r ensures x == head || x in a || x in b {
      var k :| 0 <= k < |r| && r[k] == x;
      assert x in all;
      if x != head {
        var m :| 0 <= m < |all| && all[m] == x;
        assert inner[m - 1] == x;
        assert x in a + b;
      }
    }
  }

  /** A sequence without duplicates is its own de-duplication. */
  lemma {:induction false} DedupOfDistinct<T>(s: seq<T>)
    requires NoDuplicates(s)
    ensures Dedup(s) == s
  {
    if |s| > 0 {
      var n := |s| - 1;
      var init := s[..n];
      assert NoDuplicates(init) by {
        assert forall i :: 0 <= i < n ==> init[i] == s[i];
      }
      DedupOfDistinct(init);
      assert s[n] !in init by {
        forall k | 0 <= k < n ensures init[k] != s[n] {
          assert init[k] == s[k];
        }
      }
      assert Dedup(s) == Dedup(init) + [s[n]];
      assert init + [s[n]] == s;
    }
  }

  // ---- sorting by an integer key ----

  predicate SortedBy<T>(s: seq<T>, key: T -> int) {
    forall i, j :: 0 <= i < j < |s| ==> key(s[i]) <= key(s[j])
  }

  predicate StrictlySortedBy<T>(s: seq<T>, key: T -> int) {
    forall i, j :: 0 <= i < j < |s| ==> key(s[i]) < key(s[j])
  }

  /** Places `x` after every element whose key is not greater than its own. */
  function InsertBy<T>(x: T, s: seq<T>, key: T -> int): (r: seq<T>)
    ensures |r| == |s| + 1 && x in r
    ensures forall k :: 0 <= k < |r| ==> r[k] in s || r[k] == x
    ensures forall k :: 0 <= k < |s| ==> s[k] in r
    ensures multiset(r) == multiset(s) + multiset{x}
  {
    if |s| == 0 then [x]
    else if key(x) < key(s[0]) then [x] + s
    else
      assert s == [s[0]] + s[1..];
      [s[0]] + InsertBy(x, s[1..], key)
  }

  /** Inserting into a sorted list keeps it sorted. */
  lemma {:induction false} InsertBySorted<T>(x: T, s: seq<T>, key: T -> int)
    requires SortedBy(s, key)
    ensures SortedBy(InsertBy(x, s, key), key)
  {
    if |s| > 0 && key(x) >= key(s[0]) {
      var rest := InsertBy(x, s[1..], key);
      InsertBySorted(x, s[1..], key);
      assert forall k :: 0 <= k < |s[1..]| ==> key(s[0]) <= key(s[1..][k]);
      assert InsertBy(x, s, key) == [s[0]] + rest;
    }
  }

  /** Every key after an insertion exceeds a bound that `x`'s key and every key of `s` exceed. */
  lemma InsertByAbove<T>(x: T, s: seq<T>, key: T -> int, bound: int)
    requires key(x) > bound
    requires forall i :: 0 <= i < |s| ==> key(s[i]) > bound
    ensures forall k :: 0 <= k < |InsertBy(x, s, key)| ==> key(InsertBy(x, s, key)[k]) > bound
  {
    var r := InsertBy(x, s, key);
    forall k | 0 <= k < |r| ensures key(r[k]) > bound {
      if r[k] != x {
        var m :| 0 <= m < |s| && s[m] == r[k];
      }
    }
  }

  /** Inserting an element with a new key into a strictly sorted list keeps it strictly sorted. */
  lemma {:induction false} InsertByStrict<T>(x: T, s: seq<T>, key: T -> int)
    requires StrictlySortedBy(s, key)
    requires forall i :: 0 <= i < |s| ==> key(s[i]) != key(x)
    ensures StrictlySortedBy(InsertBy(x, s, key), key)
  {
    if |s| > 0 && key(x) >= key(s[0]) {
      var tail := s[1..];
      assert forall k :: 0 <= k < |tail| ==> tail[k] == s[k + 1];
      InsertByStrict(x, tail, key);
      var rest := InsertBy(x, tail, key);
      InsertByAbove(x, tail, key, key(s[0]));
      assert InsertBy(x, s, key) == [s[0]] + rest;
      StrictCons(s[0], rest, key);
    }
  }

  /** An element whose key is at most every key of a sorted list can head it. */
  lemma SortedCons<T>(h: T, s: seq<T>, key: T -> int)
    requires SortedBy(s, key)
    requires forall k :: 0 <= k < |s| ==> key(h) <= key(s[k])
    ensures SortedBy([h] + s, key)
  {
    var r := [h] + s;
    forall i, j | 0 <= i < j < |r| ensures key(r[i]) <= key(r[j]) {
      assert r[j] == s[j - 1];
      if i > 0 { assert r[i] == s[i - 1]; }
    }
  }

  /** An element whose key is below every key of a strictly sorted list can head it. */
  lemma StrictCons<T>(h: T, s: seq<T>, key: T -> int)
    requires StrictlySortedBy(s, key)
    requires forall k :: 0 <= k < |s| ==> key(h) < key(s[k])
    ensures StrictlySortedBy([h] + s, key)
  {
    var r := [h] + s;
    forall i, j | 0 <= i < j < |r| ensures key(r[i]) < key(r[j]) {
      assert r[j] == s[j - 1];
      if i > 0 { assert r[i] == s[i - 1]; }
    }
  }

  /** `s.sort((a, b) => key(a) - key(b))`: a stable insertion sort by key. */
  function SortBy<T>(s: seq<T>, key: T -> int): (r: seq<T>)
    ensures |r| == |s| && SortedBy(r, key)
    ensures forall k :: 0 <= k < |r| ==> r[k] in s
    ensures forall k :: 0 <= k < |s| ==> s[k] in r
    ensures multiset(r) == multiset(s)
  {
    if |s| == 0 then []
    else
      var init, x := s[..|s| - 1], s[|s| - 1];
      assert s == init + [x];
      var sorted := SortBy(init, key);
      InsertBySorted(x, sorted, key);
      InsertBy(x, sorted, key)
  }

  /** No two elements of `s` have the same key. */
  predicate DistinctKeys<T>(s: seq<T>, key: T -> int) {
    forall i, j :: 0 <= i < j < |s| ==> key(s[i]) != key(s[j])
  }

  /** Sorting elements whose keys are pairwise distinct gives a strictly ascending list. */
  lemma {:induction false} SortByStrict<T>(s: seq<T>, key: T -> int)
    requires DistinctKeys(s, key)
    ensures StrictlySortedBy(SortBy(s, key), key)
  {
    if |s| > 0 {
      var init := s[..|s| - 1];
      DistinctKeysInit(s, init, key);
      SortByStrict(init, key);
      KeyIsNew(init, s[|s| - 1], key);
      InsertByStrict(s[|s| - 1], SortBy(init, key), key);
    }
  }

  /** Without its last element, the list still has distinct keys, none of them the last one's. */
  lemma DistinctKeysInit<T>(s: seq<T>, init: seq<T>, key: T -> int)
    requires DistinctKeys(s, key) && |s| > 0 && init == s[..|s| - 1]
    ensures DistinctKeys(init, key)
    ensures forall k :: 0 <= k < |init| ==> key(init[k]) != key(s[|s| - 1])
  {
    assert forall k :: 0 <= k < |init| ==> init[k] == s[k];
  }

  /** A key that no element has is not the key of any element once sorted. */
  lemma KeyIsNew<T>(s: seq<T>, x: T, key: T -> int)
    requires forall k :: 0 <= k < |s| ==> key(s[k]) != key(x)
    ensures forall k :: 0 <= k < |SortBy(s, key)| ==> key(SortBy(s, key)[k]) != key(x)
  {
    var sorted := SortBy(s, key);
    forall k | 0 <= k < |sorted| ensures key(sorted[k]) != key(x) {
      var m :| 0 <= m < |s| && s[m] == sorted[k];
    }
  }
}

=== FILE: text.dfy ===
/** Character classes and string operations the source takes from JavaScript:
    `\s` / `trim`, `\d`, `parseInt(s, 10)`, `toUpperCase` on Latin letters, `length`, and the
    two-digit `"HH:mm"` clock format of business hours. Strings are `seq<char>`. */
module Text {
  import opened Wrappers
  import Seqs

  /** `\d` in a JavaScript regular expression: an ASCII decimal digit. */
  predicate IsDigit(c: char) {
    '0' <= c <= '9'
  }

  /** `\s` in a JavaScript regular expression, which is also the set `trim` removes:
      the WhiteSpace and LineTerminator code points of ECMAScript. */
  predicate IsSpace(c: char) {
    || c == '\t' || c == '\n' || c == '\U{B}' || c == '\U{C}' || c == '\r' || c == ' '
    || c == '\U{A0}' || c == '\U{1680}' || ('\U{2000}' <= c <= '\U{200A}')
    || c == '\U{2028}' || c == '\U{2029}' || c == '\U{202F}' || c == '\U{205F}'
    || c == '\U{3000}' || c == '\U{FEFF}'
  }

  /** The value of digit `c`. */
  function DigitValue(c: char): int {
    c as int - '0' as int
  }

  predicate AllDigits(s: string) {
    forall i :: 0 <= i < |s| ==> IsDigit(s[i])
  }

  /** `s.replace(/\D/g, "")`: the digits of `s`, in order. */
  function DigitsOf(s: string): (r: string)
    ensures AllDigits(r)
    ensures |r| <= |s|
  {
    Seqs.Filter(s, IsDigit)
  }

  predicate NotSpace(c: char) {
    !IsSpace(c)
  }

  /** `s.replace(/\s/g, "")`: `s` without any whitespace. */
  function StripSpaces(s: string): (r: string)
    ensures forall i :: 0 <= i < |r| ==> !IsSpace(r[i])
    ensures |r| <= |s|
  {
    Seqs.Filter(s, NotSpace)
  }

  /** `s` without its leading whitespace. */
  function TrimStart(s: string): (r: string)
    ensures |r| <= |s|
  {
    if |s| > 0 && IsSpace(s[0]) then TrimStart(s[1..]) else s
  }

  /** What `TrimStart` removes is whitespace, and what it keeps is a suffix that does not start
      with whitespace. */
  lemma {:induction false} TrimStartShape(s: string)
    ensures TrimStart(s) == s[|s| - |TrimStart(s)|..]
    ensures |TrimStart(s)| > 0 ==> !IsSpace(TrimStart(s)[0])
    ensures forall i :: 0 <= i < |s| - |TrimStart(s)| ==> IsSpace(s[i])
  {
    if |s| > 0 && IsSpace(s[0]) {
      TrimStartShape(s[1..]);
      assert forall i :: 1 <= i < |s| ==> s[i] == s[1..][i - 1];
    }
  }

  /** `s` without its trailing whitespace. */
  function TrimEnd(s: string): (r: string)
    ensures |r| <= |s|
  {
    if |s| > 0 && IsSpace(s[|s| - 1]) then TrimEnd(s[..|s| - 1]) else s
  }

  /** What `TrimEnd` removes is whitespace, and what it keeps is a prefix that does not end with
      whitespace. */
  lemma {:induction false} TrimEndShape(s: string)
    ensures TrimEnd(s) == s[..|TrimEnd(s)|]
    ensures |TrimEnd(s)| > 0 ==> !IsSpace(TrimEnd(s)[|TrimEnd(s)| - 1])
    ensures forall i :: |TrimEnd(s)| <= i < |s| ==> IsSpace(s[i])
  {
    if |s| > 0 && IsSpace(s[|s| - 1]) {
      TrimEndShape(s[..|s| - 1]);
    }
  }

  /** `s.trim()`: `s` without leading and trailing whitespace. */
  function Trim(s: string): (r: string)
    ensures |r| <= |s|
    ensures |r| > 0 ==> !IsSpace(r[0]) && !IsSpace(r[|r| - 1])
    ensures r == [] <==> forall i :: 0 <= i < |s| ==> IsSpace(s[i])
  {
    var t := TrimStart(s);
    TrimStartShape(s);
    TrimEndShape(t);
    var r := TrimEnd(t);
    assert |r| > 0 ==> r[0] == s[|s| - |t|];
    assert r == [] ==> forall i :: 0 <= i < |s| ==> IsSpace(s[i]) by {
      if r == [] {
        assert |t| == 0;
      }
    }
    r
  }

  /** A lower-case letter whose capital sits 32 code points lower: `a`-`z`, and `à`-`þ` but
      not `÷`. */
  predicate HasShiftedCapital(c: char) {
    ('a' <= c <= 'z') || ('\U{E0}' <= c <= '\U{FE}' && c != '\U{F7}')
  }

  /** A lower-case letter of ASCII or Latin-1 whose capital is one character: the shifted ones,
      `µ` and `ÿ`. Of the Latin-1 lower-case letters only `ß` is missing, whose capital is `SS`. */
  predicate IsLowerLatin(c: char) {
    HasShiftedCapital(c) || c == '\U{B5}' || c == '\U{FF}'
  }

  /** `toUpperCase` on one character: a lower-case ASCII or Latin-1 letter becomes its capital
      (`µ` the Greek `Μ`, `ÿ` the `Ÿ` of Latin Extended-A); every other character is kept. */
  function UpperChar(c: char): (u: char)
    ensures HasShiftedCapital(c) ==> u as int == c as int - 32
    ensures c == '\U{B5}' ==> u == '\U{39C}'
    ensures c == '\U{FF}' ==> u == '\U{178}'
    ensures IsLowerLatin(c) ==> !IsLowerLatin(u)
    ensures !IsLowerLatin(c) ==> u == c
  {
    if HasShiftedCapital(c) then (c as int - 32) as char
    else if c == '\U{B5}' then '\U{39C}'
    else if c == '\U{FF}' then '\U{178}'
    else c
  }

  /** `s.toUpperCase()`, character by character. */
  function ToUpper(s: string): (r: string)
    ensures |r| == |s|
    ensures forall i :: 0 <= i < |s| ==> r[i] == UpperChar(s[i])
  {
    if |s| == 0 then [] else [UpperChar(s[0])] + ToUpper(s[1..])
  }

  /** JavaScript's `s.length`: the number of UTF-16 code units, so a character above U+FFFF
      (an emoji, say) counts twice. */
  function Utf16Length(s: string): (n: nat)
    ensures |s| <= n <= 2 * |s|
  {
    if |s| == 0 then 0 else (if s[0] as int >= 0x1_0000 then 2 else 1) + Utf16Length(s[1..])
  }

  /** Text without characters above U+FFFF has one code unit per character. */
  lemma {:induction false} Utf16OfBmp(s: string)
    requires forall i :: 0 <= i < |s| ==> s[i] as int < 0x1_0000
    ensures Utf16Length(s) == |s|
  {
    if |s| > 0 {
      assert forall i :: 0 <= i < |s[1..]| ==> s[1..][i] == s[i + 1];
      Utf16OfBmp(s[1..]);
    }
  }

  /** Digits are one code unit each. */
  lemma Utf16OfDigits(s: string)
    requires AllDigits(s)
    ensures Utf16Length(s) == |s|
  {
    assert forall i :: 0 <= i < |s| ==> s[i] as int < 0x1_0000 by {
      forall i | 0 <= i < |s| ensures s[i] as int < 0x1_0000 {
        assert IsDigit(s[i]);
      }
    }
    Utf16OfBmp(s);
  }

  /** The value of a non-empty run of decimal digits. */
  function DigitsValue(s: string): (n: nat)
    requires AllDigits(s)
  {
    if |s| == 0 then 0 else 10 * DigitsValue(s[..|s| - 1]) + (s[|s| - 1] as int - '0' as int)
  }

  /** The value of two digits. */
  lemma TwoDigitsValue(s: string)
    requires |s| == 2 && AllDigits(s)
    ensures DigitsValue(s) == 10 * (s[0] as int - '0' as int) + (s[1] as int - '0' as int)
  {
    assert s[..1][..0] == [];
    assert DigitsValue(s[..1]) == s[0] as int - '0' as int;
    assert s[..|s| - 1] == s[..1];
  }

  /** The longest prefix of `s` made of digits. */
  function LeadingDigits(s: string): (r: string)
    ensures AllDigits(r) && |r| <= |s|
  {
    if |s| > 0 && IsDigit(s[0]) then [s[0]] + LeadingDigits(s[1..]) else []
  }

  /** `parseInt(s, 10)`: skip leading whitespace, read an optional sign and the longest run of
      digits after it; `None` stands for `NaN` (no digit where one is needed). */
  function ParseIntPrefix(s: string): Option<int> {
    ParseSigned(TrimStart(s))
  }

  /** An optional sign followed by digits. */
  function ParseSigned(t: string): Option<int> {
    if |t| > 0 && t[0] == '-' then Negate(ParseUnsigned(t[1..]))
    else if |t| > 0 && t[0] == '+' then ParseUnsigned(t[1..])
    else ParseUnsigned(t)
  }

  function Negate(v: Option<int>): Option<int> {
    if v.Some? then Some(-v.value) else None
  }

  /** The value of the digits `t` starts with; `None` when it does not start with one. */
  function ParseUnsigned(t: string): Option<int> {
    if |t| > 0 && IsDigit(t[0]) then Some(DigitsValue(LeadingDigits(t))) else None
  }

  /** `s.split(":")[0]`: the text before the first colon, or all of `s`. */
  function BeforeColon(s: string): (r: string)
    ensures |r| <= |s|
  {
    if |s| == 0 || s[0] == ':' then [] else [s[0]] + BeforeColon(s[1..])
  }

  /** The minute offset from midnight that `date.setHours(parseInt(h, 10), parseInt(m, 10), 0, 0)`
      gives for `time = h + ":" + m + ...`: `setHours` accepts out-of-range hours and minutes and
      carries them over, which on a minute timeline is plain arithmetic while the instant stays in
      the range a `Date` holds (`Availability.Window` checks that). `None` is an invalid date: a
      missing colon, or a part without digits. */
  function ClockOffset(time: string): (r: Option<int>) {
    OffsetAfter(time, BeforeColon(time))
  }

  /** The offset once the hour text, everything before the first colon, is known. */
  function OffsetAfter(time: string, hourText: string): Option<int>
    requires |hourText| <= |time|
  {
    if |hourText| == |time| then None
    else Combine(ParseIntPrefix(hourText), ParseIntPrefix(BeforeColon(time[|hourText| + 1..])))
  }

  /** `hours * 60 + minutes`, invalid when either part is. */
  function Combine(hours: Option<int>, minutes: Option<int>): Option<int> {
    if hours.Some? && minutes.Some? then Some(hours.value * 60 + minutes.value) else None
  }

  function DigitChar(d: int): (c: char)
    requires 0 <= d < 10
    ensures IsDigit(c)
  {
    ('0' as int + d) as char
  }

  /** A well-formed 24-hour clock time: exactly `HH:mm` with `HH` in 00..23 and `mm` in 00..59. */
  predicate WellFormedTime(s: string) {
    && |s| == 5 && s[2] == ':'
    && IsDigit(s[0]) && IsDigit(s[1]) && IsDigit(s[3]) && IsDigit(s[4])
    && DigitsValue(s[..2]) <= 23 && DigitsValue(s[3..]) <= 59
  }

  /** The minute of the day a well-formed `HH:mm` names. */
  function MinuteOfDay(s: string): (m: int)
    requires WellFormedTime(s)
    ensures 0 <= m < 1440
  {
    DigitsValue(s[..2]) * 60 + DigitsValue(s[3..])
  }

  /** `format(d, "HH:mm")` for a minute of the day. */
  function FormatClock(minute: int): (s: string)
    requires 0 <= minute < 1440
    ensures WellFormedTime(s) && MinuteOfDay(s) == minute
  {
    var h := minute / 60;
    var m := minute % 60;
    var s := [DigitChar(h / 10), DigitChar(h % 10), ':', DigitChar(m / 10), DigitChar(m % 10)];
    TwoDigitsValue(s[..2]);
    TwoDigitsValue(s[3..]);
    s
  }

  /** Splitting a minute count back into hours and minutes. */
  lemma HoursAndMinutes(h: int, m: int)
    requires 0 <= m < 60
    ensures (h * 60 + m) / 60 == h && (h * 60 + m) % 60 == m
  {
  }

  /** Splitting a two-digit number back into its digits. */
  lemma TensAndUnits(t: int, u: int)
    requires 0 <= u < 10
    ensures (10 * t + u) / 10 == t && (10 * t + u) % 10 == u
  {
  }

  lemma DigitCharValue(c: char)
    requires IsDigit(c)
    ensures 0 <= DigitValue(c) < 10 && DigitChar(DigitValue(c)) == c
  {
  }

  /** `FormatClock` prints the digits of the hour and of the minute. */
  lemma FormatClockParts(h: int, m: int)
    requires 0 <= h < 24 && 0 <= m < 60
    ensures FormatClock(h * 60 + m) == [DigitChar(h / 10), DigitChar(h % 10), ':', DigitChar(m / 10), DigitChar(m % 10)]
  {
    HoursAndMinutes(h, m);
  }

  /** Printing the minute that four digits `ab:cd` name gives back those digits. */
  lemma CharsRoundTrip(a: char, b: char, c: char, d: char)
    requires IsDigit(a) && IsDigit(b) && IsDigit(c) && IsDigit(d)
    requires 10 * DigitValue(a) + DigitValue(b) < 24 && 10 * DigitValue(c) + DigitValue(d) < 60
    ensures FormatClock((10 * DigitValue(a) + DigitValue(b)) * 60 + 10 * DigitValue(c) + DigitValue(d)) == [a, b, ':', c, d]
  {
    DigitCharValue(a);
    DigitCharValue(b);
    DigitCharValue(c);
    DigitCharValue(d);
    var h, m := 10 * DigitValue(a) + DigitValue(b), 10 * DigitValue(c) + DigitValue(d);
    FormatClockParts(h, m);
    TensAndUnits(DigitValue(a), DigitValue(b));
    TensAndUnits(DigitValue(c), DigitValue(d));
  }

  /** The characters `FormatClock` prints for the minute `HH:mm` names are the characters of
      `HH:mm`. */
  lemma ClockRoundTrip(time: string)
    requires WellFormedTime(time)
    ensures FormatClock(MinuteOfDay(time)) == time
  {
    assert time[..2] == [time[0], time[1]] && time[3..] == [time[3], time[4]];
    PairValue(time[0], time[1]);
    PairValue(time[3], time[4]);
    CharsRoundTrip(time[0], time[1], time[3], time[4]);
    assert time == [time[0], time[1], ':', time[3], time[4]];
  }

  /** `formatTime`: parse `HH:mm` and print it back as `HH:mm`. A well-formed time comes back
      unchanged. */
  function FormatTime(time: string): (r: string)
    requires WellFormedTime(time)
    ensures r == time
  {
    ClockRoundTrip(time);
    FormatClock(MinuteOfDay(time))
  }

  /** A run of digits is read whole. */
  lemma {:induction false} LeadingDigitsOfDigits(s: string)
    requires AllDigits(s)
    ensures LeadingDigits(s) == s
  {
    if |s| > 0 {
      LeadingDigitsOfDigits(s[1..]);
    }
  }

  /** `parseInt` of a non-empty run of digits is its value. */
  lemma ParseDigits(s: string)
    requires |s| > 0 && AllDigits(s)
    ensures ParseIntPrefix(s) == Some(DigitsValue(s))
  {
    assert IsDigit(s[0]);
    assert !IsSpace(s[0]);
    assert TrimStart(s) == s;
    assert ParseSigned(s) == ParseUnsigned(s);
    LeadingDigitsOfDigits(s);
  }

  /** Text without a colon is its own first `split(":")` part. */
  lemma {:induction false} BeforeColonNoColon(s: string)
    requires ':' !in s
    ensures BeforeColon(s) == s
  {
    if |s| > 0 {
      BeforeColonNoColon(s[1..]);
    }
  }

  /** The hour part of a well-formed `HH:mm` is its first two characters. */
  lemma HourTextOfClock(time: string)
    requires |time| == 5 && time[0] != ':' && time[1] != ':' && time[2] == ':'
    ensures BeforeColon(time) == time[..2]
  {
    assert BeforeColon(time[2..]) == [];
    assert time[1..][1..] == time[2..];
    assert BeforeColon(time[1..]) == [time[1]];
  }

  /** `HH:mm` written with any four digits reads as `HH * 60 + mm` minutes. */
  lemma ClockOffsetOfChars(a: char, b: char, c: char, d: char)
    requires IsDigit(a) && IsDigit(b) && IsDigit(c) && IsDigit(d)
    ensures ClockOffset([a, b, ':', c, d]) == Some((10 * DigitValue(a) + DigitValue(b)) * 60 + 10 * DigitValue(c) + DigitValue(d))
  {
    ClockTexts(a, b, c, d);
    PairParse(a, b);
    PairParse(c, d);
    ClockOffsetOfParts([a, b, ':', c, d], [a, b], [c, d], 10 * DigitValue(a) + DigitValue(b), 10 * DigitValue(c) + DigitValue(d));
  }

  /** How `HH:mm` written with four digits splits at its colon. */
  lemma ClockTexts(a: char, b: char, c: char, d: char)
    requires IsDigit(a) && IsDigit(b) && IsDigit(c) && IsDigit(d)
    ensures BeforeColon([a, b, ':', c, d]) == [a, b]
    ensures [a, b, ':', c, d][3..] == [c, d] && BeforeColon([c, d]) == [c, d]
  {
    var time := [a, b, ':', c, d];
    assert time[..2] == [a, b] && time[3..] == [c, d];
    HourTextOfClock(time);
    MinuteTextOfClock(time);
  }

  /** `parseInt` of two digits. */
  lemma PairParse(x: char, y: char)
    requires IsDigit(x) && IsDigit(y)
    ensures ParseIntPrefix([x, y]) == Some(10 * DigitValue(x) + DigitValue(y))
  {
    PairRead(x, y);
    PairValue(x, y);
    var v := DigitsValue([x, y]);
    assert ParseIntPrefix([x, y]) == Some(v);
  }

  /** `parseInt` reads both characters of two digits. */
  lemma PairRead(x: char, y: char)
    requires IsDigit(x) && IsDigit(y)
    ensures AllDigits([x, y]) && ParseIntPrefix([x, y]) == Some(DigitsValue([x, y]))
  {
    PairUntrimmed(x, y);
    PairLeading(x, y);
    assert ParseSigned([x, y]) == ParseUnsigned([x, y]);
  }

  /** Two digits have no leading whitespace to trim. */
  lemma PairUntrimmed(x: char, y: char)
    requires IsDigit(x)
    ensures TrimStart([x, y]) == [x, y]
  {
    assert !IsSpace(x);
  }

  /** Two digits are read whole. */
  lemma PairLeading(x: char, y: char)
    requires IsDigit(x) && IsDigit(y)
    ensures LeadingDigits([x, y]) == [x, y]
  {
    assert [x, y][1..] == [y];
    assert LeadingDigits([y]) == [y] by { assert [y][1..] == []; }
  }

  /** The value of two digits, from the characters. */
  lemma PairValue(x: char, y: char)
    requires IsDigit(x) && IsDigit(y)
    ensures DigitsValue([x, y]) == 10 * DigitValue(x) + DigitValue(y)
  {
    var s := [x, y];
    assert s[..1] == [x];
    assert DigitsValue([x]) == DigitValue(x) by {
      assert [x][..0] == [];
    }
  }

  /** On a well-formed `HH:mm` the lenient `split`/`parseInt` reading of the slot generator and the
      strict reading agree. */
  lemma ClockOffsetWellFormed(time: string)
    requires WellFormedTime(time)
    ensures ClockOffset(time) == Some(MinuteOfDay(time))
  {
    assert time == [time[0], time[1], ':', time[3], time[4]];
    ClockOffsetOfChars(time[0], time[1], time[3], time[4]);
    TwoDigitsValue(time[..2]);
    TwoDigitsValue(time[3..]);
  }

  /** The minute part of a well-formed `HH:mm` is its last two characters. */
  lemma MinuteTextOfClock(time: string)
    requires |time| == 5 && time[3] != ':' && time[4] != ':'
    ensures BeforeColon(time[3..]) == time[3..]
  {
    assert time[3..] == [time[3], time[4]];
    BeforeColonNoColon(time[3..]);
  }

  /** Once the two texts around the first colon are known and both parse, the offset is
      `hours * 60 + minutes`. */
  lemma {:induction false} ClockOffsetOfParts(time: string, hourText: string, minuteText: string, h: int, m: int)
    requires BeforeColon(time) == hourText && |hourText| < |time|
    requires BeforeColon(time[|hourText| + 1..]) == minuteText
    requires ParseIntPrefix(hourText) == Some(h) && ParseIntPrefix(minuteText) == Some(m)
    ensures ClockOffset(time) == Some(h * 60 + m)
  {
    assert ClockOffset(time) == OffsetAfter(time, hourText);
    assert OffsetAfter(time, hourText) == Combine(Some(h), Some(m));
  }
}

=== FILE: wrappers.dfy ===
/** The optional-value datatype the rest of the model uses where the source
    works with `null`, `undefined` or a value that may be missing. */
module Wrappers {

  datatype Option<+T> = None | Some(value: T) {

    /** The wrapped value, or `default` when there is none (the source's `x ?? d`). */
    function GetOr(default: T): T {
      match this
      case Some(v) => v
      case None => default
    }
  }
}
